=== FILE: README.md ===
# Perudo rules engine in Dafny

This project models the rules engine of an online Perudo (Liar's Dice) game. A
game document holds the room, its members, its settings and a game state. The
engine's operations change that document:

- a host creates a room, and players join, set ready, leave and reconnect;
- the host starts the game, and the first alive player is to bid;
- players bid in turn, and the turn passes up or down the table;
- a player calls dudo (the bid is too high) or calza (the bid is exact), the
  dice are counted, someone loses or wins a die, and a new round starts, which
  may be a Palifico round;
- the game ends when a single player is still alive.

Around that engine the project also models:

- the bidding panel's client-side checks;
- player statistics and success rates;
- the launch-page countdown;
- the theme toggle and theme resolution;
- the dice panel's resize, roll bookkeeping, display order and face tally.

Every operation is a pure function on immutable datatypes.

- Players are a list of ids plus a map from id to player record. The list
  stands for `Object.keys(gameState.players)`, the order in which the engine
  visits players. The model takes it to be the order of joining; see
  "## Left out".
- Randomness is an input. `Dice.Draws` is the sequence of faces that successive
  `Math.floor(Math.random() * 6) + 1` calls would produce. The ghost predicate
  `FairDraws` says every draw is a face, and facts about faces are stated under
  that assumption.
- A failed operation is an `Err` of `GameError`, and nothing is written.
- The current time, the browser's colour-scheme query, local storage and the
  signed-in profile are parameters.

Modules, one file each:

| module | file | contents |
|---|---|---|
| `Wrappers` | wrappers.dfy | `Option` and `Result` |
| `Dice` | dice.dfy | faces, draws, rolling, face counts |
| `GameTypes` | game_types.dfy | players, wagers, game state, game document |
| `Dealing` | dealing.dfy | rolling dice for the players of a round |
| `Turns` | turns.dfy | next player after a bid |
| `Bidding` | bidding.dfy | the server's bid check |
| `Resolution` | resolution.dfy | counting the dice that support a wager |
| `Lobby` | lobby.dfy | create, join, settings, ready, leave, reconnect, start |
| `Rounds` | rounds.dfy | bid, dudo, calza, next round, game over |
| `ControlPanel` | control_panel.dfy | the bidding panel |
| `UserStats` | user_stats.dfy | profiles, statistics, success rates |
| `Countdown` | countdown.dfy | countdown arithmetic and display |
| `Theme` | theme.dfy | theme cycle, icons, labels, resolution |
| `DiceArea` | dice_area.dfy | the dice panel |

## Rules as the code implements them

The model follows `src/lib/firebase-game.ts`:

- **Bid check.** A normal-round bid must beat the current one on an
  ace-weighted total, where a bid on aces counts double. One consequence:
  leaving aces for another face needs only a higher count.
- **Calza reward.** A successful calza raises the caller to at most five dice
  (`min(5, dice + 1)`). So a caller who holds six dice, which
  `updateGameSettings` allows, drops to five after a correct calza.
- **Palifico.** A round is Palifico whenever exactly one alive player has
  exactly one die.
- **Next round's first player.** The player who lost the die, or the calza
  caller, opens the next round if still alive. Otherwise the first alive player
  in key order opens it.
- **Phases.** Both `startGame` and `startNewRound` go straight to the
  'wagering' phase.
- **Rules the code never checks.** There are no seven-dice or seven-calza
  victories and no ghost calza, even though the settings carry those flags.
- **Disconnected players.** Their dice still count in a dudo or calza. They get
  no new dice in the next round.
- **Starting the game.** `startGame` does not reset the current wager.

## Model

| member | source | states |
|---|---|---|
| Dice.Roll | src/lib/firebase-game.ts:424 | `Array.from({length: n}, roll)`: `max(n, 0)` consecutive draws, each a face when the draws are fair |
| Dice.Occurrences | src/components/game/DiceArea.tsx:148 | the number of dice showing a face is at most the dice, and zero exactly when no die shows it |
| Dice.OccurrencesAppend | src/components/game/DiceArea.tsx:148 | face counts add over concatenated dice |
| Dealing.Deal | src/lib/firebase-game.ts:686-695 | dealing keeps every player's dice count, status and calza count, and gives each dealt player exactly their dice count of draws, fair faces under fair draws; players outside the list are untouched |
| Turns.IndexOf | src/lib/firebase-game.ts:512 | `indexOf`: -1 exactly when absent, otherwise the first position holding the id |
| Turns.JsRem | src/lib/firebase-game.ts:514-516 | JavaScript's `%`: agrees with the mathematical remainder for a non-negative dividend; for a negative one it is 0 when `n` divides the dividend and the Euclidean remainder less `n` otherwise, so it lies in (-n, 0] |
| Turns.NextPlayer | src/lib/firebase-game.ts:505-517 | the next player is one of the active players, and there is none exactly when no player is active |
| Turns.NextFromSeat | src/lib/firebase-game.ts:512-517 | from a seat in the list, 'up' moves to the following seat and 'down' to the preceding one, wrapping at both ends |
| Turns.NextFromOutside | src/lib/firebase-game.ts:512-517 | a bidder missing from the list passes to the first player going 'up', and to the last but one going 'down' |
| Turns.UpThenDownReturns | src/lib/firebase-game.ts:512-517 | moving up then down, or down then up, returns to the same player |
| Bidding.CheckBid | src/lib/firebase-game.ts:472-495 | the first bid is always accepted; in Palifico a bid is accepted exactly when it keeps one of count and face and raises the other, and changing both is the first error; keeping the face without raising the count is "must increase count", and keeping the count with a lower face is "must increase value"; in a normal round the only error is "not higher" |
| Bidding.RepeatRefused | src/lib/firebase-game.ts:472-495 | repeating the current wager is refused in either kind of round |
| Bidding.NormalCountRaiseAccepted | src/lib/firebase-game.ts:488-494 | a higher count on the same or a higher face is accepted |
| Bidding.NormalSameCount | src/lib/firebase-game.ts:488-494 | at the same count the only accepted bid moves from another face onto aces |
| Bidding.NormalOntoAces | src/lib/firebase-game.ts:488-494 | moving onto aces is accepted exactly when twice the new count exceeds the current count |
| Bidding.NormalOffAces | src/lib/firebase-game.ts:488-494 | leaving aces for another face is accepted exactly when the count goes up |
| Bidding.NormalAcceptedRaises | src/lib/firebase-game.ts:488-494 | every accepted normal-round bid raises the ace-weighted total or the count |
| Resolution.MatchCount | src/lib/firebase-game.ts:560-564 | one player's supporting dice are at most their dice |
| Resolution.MatchCountByFace | src/lib/firebase-game.ts:560-564 | in Palifico or for aces only the bid face counts; otherwise the bid face and the aces both count |
| Resolution.ActualCountIsTableCount | src/lib/firebase-game.ts:552-566 | counting player by player equals counting the whole revealed table |
| Resolution.ActualCountByFace | src/lib/firebase-game.ts:625-639 | the supporting count is at most the revealed dice, and equals the face counts on the table given by `MatchCountByFace` |
| Lobby.CreateGame | src/lib/firebase-game.ts:104-133 | a new room is waiting, empty, has nine seats and the default settings, and has no game state or winner |
| Lobby.StartingDice | src/lib/firebase-game.ts:193 | `startingDice \|\| 5`: a configured non-zero value is used, and zero falls back to five |
| Lobby.Nickname | src/lib/firebase-game.ts:192 | an absent or empty nickname falls back to the player's name |
| Lobby.NewSeat | src/lib/firebase-game.ts:188-200 | a newcomer is alive, connected, not ready, has no dice showing and no calzas, and has the starting dice, the given name, and the nickname or, failing that, the name |
| Lobby.Seat | src/lib/firebase-game.ts:178-188 | a new id goes at the end of the key order and an existing id keeps its place; the state stays well formed |
| Lobby.JoinGame | src/lib/firebase-game.ts:136-214 | completed games are not found; members rejoin, and are reconnected when the game is active; non-members get "in progress" for an active game and "full" when every seat is taken; otherwise they are seated at the end of the key order (or in place, if already a key), with every other game-state field kept, added to the members, and the player count goes up by one |
| Lobby.JoinNewGame | src/lib/firebase-game.ts:136-214 | anyone can join a freshly created room and becomes its only player, with five dice |
| Lobby.UpdateGameSettings | src/lib/firebase-game.ts:268-298 | the settings are stored; when the starting dice change every seated player gets that many dice and nothing else about them changes |
| Lobby.UpdatePlayerReady | src/lib/firebase-game.ts:301-328 | the named player's ready flag becomes the given value, every other field of that player and every other player are unchanged, and the set of players is the same; an unknown player changes nothing |
| Lobby.LeaveGame | src/lib/firebase-game.ts:345-356 | the player is marked not connected and, in an active game, an alive player becomes disconnected; nothing else changes |
| Lobby.ReconnectToGame | src/lib/firebase-game.ts:384-391 | the player is marked connected and a disconnected player is alive again; nothing else changes |
| Lobby.ReconnectIdempotent | src/lib/firebase-game.ts:384-391 | reconnecting twice is the same as reconnecting once |
| Lobby.LeaveThenReconnect | src/lib/firebase-game.ts:331-402 | in an active game, leaving and reconnecting restores an alive, connected player exactly |
| Lobby.OpenRound | src/lib/firebase-game.ts:416-433 | every alive player rolls their dice count, others are untouched; the round's dice map holds exactly the alive players' dice; the first alive player in key order is to bid; the round is 1 and the phase is wagering |
| Lobby.StartGame | src/lib/firebase-game.ts:405-444 | the game becomes active, and the first round opens if there is a game state |
| Rounds.MakeBid | src/lib/firebase-game.ts:447-527 | no state means "not started", a bid out of turn is refused, a bid failing the check is refused with its reason; an accepted bid becomes the wager and only the wager and the player to act change, and the next player is active |
| Rounds.BidPassesTurn | src/lib/firebase-game.ts:505-517 | a bid made in turn by an active player that passes the check is accepted, and passes the turn to the neighbour in the round's direction |
| Rounds.LastStandingIff | src/lib/firebase-game.ts:675-678 | the alive list has one entry exactly when a single player is alive |
| Rounds.PalificoRound | src/lib/firebase-game.ts:697-700 | the next round is Palifico exactly when one alive player, and only one, has one die |
| Rounds.RoundStarter | src/lib/firebase-game.ts:707-709 | the given player opens the round if still alive, otherwise the first alive player in key order, and nobody when none is alive |
| Rounds.NextRound | src/lib/firebase-game.ts:683-709 | alive players with dice roll their dice count and everybody else shows none; the round number goes up, the wager is cleared, the phase is wagering; Palifico and the first player are as above |
| Rounds.StartNewRound | src/lib/firebase-game.ts:667-718 | with a single alive player the game is completed and that player has won; otherwise the next round opens |
| Rounds.StartNewRoundKeepsStanding | src/lib/firebase-game.ts:683-709 | a new round changes nobody's dice count, status, or calza count |
| Rounds.LoseDie | src/lib/firebase-game.ts:581-587 | a loser has one die fewer, never below zero, and is dead at zero |
| Rounds.WinCalza | src/lib/firebase-game.ts:642-646 | a correct calza adds one die up to five and counts one more calza |
| Rounds.CallDudo | src/lib/firebase-game.ts:530-596 | without a wager, "no wager"; out of turn, refused; otherwise the loser is the caller if the supporting dice reach the bid and the bidder if not; the loser loses a die and the next round starts with them |
| Rounds.PenaltyThenRound | src/lib/firebase-game.ts:581-590 | after one player's record changes and a round starts, only that player's standing differs and the table's dice change by the difference |
| Rounds.DudoOutcome | src/lib/firebase-game.ts:568-590 | a dudo in turn on a standing wager succeeds; only the loser's standing changes: one die fewer, dead at zero, and the table holds one die fewer |
| Rounds.CallCalza | src/lib/firebase-game.ts:599-664 | without a wager, "no wager"; out of turn, refused; calling one's own bid is refused; otherwise the caller wins a die when the count is exact and loses one when it is not, and the next round starts with them |
| Rounds.CalzaOutcome | src/lib/firebase-game.ts:641-658 | a calza in turn on another player's wager succeeds; only the caller's standing changes: exact gives one more die up to five and one more calza, wrong gives one die fewer and death at zero; the table's dice change by the same amount |
| ControlPanel.InitialSelection | src/components/game/ControlPanel.tsx:40-41 | the panel starts on the current bid, with a missing or zero part read as 1 |
| ControlPanel.InitialSelectionRefused | src/components/game/ControlPanel.tsx:40-57 | the panel opens on the current bid itself, which neither the panel's check nor the server's accepts, so a bid must be changed before it can be sent; with no bid it opens on one ace, which both accept |
| ControlPanel.IsValidBid | src/components/game/ControlPanel.tsx:45-57 | the client's check: any first bid; in Palifico the same face with a higher count; otherwise a higher face, or the same face with a higher count |
| ControlPanel.SubmitBid | src/components/game/ControlPanel.tsx:59-63 | a bid is sent exactly when the panel is enabled and the selection is valid, and it is the selection |
| ControlPanel.BidButtonSends | src/components/game/ControlPanel.tsx:187-190 | an enabled bid button sends the selection; on the player's turn it is enabled exactly when the selection would be sent, and off turn never |
| ControlPanel.ChallengeReachesServer | src/components/game/ControlPanel.tsx:196-212 | on an enabled panel showing the game's wager, dudo and calza are enabled exactly when the engine would not refuse the call for want of a wager |
| ControlPanel.AdjustCount | src/components/game/ControlPanel.tsx:70-73 | the stepper stays between 1 and the dice on the table, moves exactly by the step when that stays in range, and otherwise stops at the dice on the table above or at 1 below |
| ControlPanel.StepUpThenDown | src/components/game/ControlPanel.tsx:70-73 | from a count in range, +1 then -1 returns to the count below the top and to one less at the top, and no single step leaves the range |
| ControlPanel.SelectFace | src/components/game/ControlPanel.tsx:149-155 | a click selects the face, and a click on a disabled panel or a disabled face leaves the selection unchanged; in Palifico with a bid only the bid's face can be selected |
| ControlPanel.PalificoFaceLocked | src/components/game/ControlPanel.tsx:149-155 | in Palifico with a bid, no sequence of face clicks moves off the bid's face |
| ControlPanel.RulesAgree | src/components/game/ControlPanel.tsx:45-57 | with no bid, or with a higher count on the same face, the client and the server both accept |
| ControlPanel.PalificoPanelStricter | src/components/game/ControlPanel.tsx:45-57 | in Palifico the server accepts every bid the panel allows, and also the same count on a higher face |
| ControlPanel.HigherFaceDisagreement | src/components/game/ControlPanel.tsx:45-57 | in a normal round the panel allows some higher-face bids that the server refuses |
| ControlPanel.LowerFaceDisagreement | src/components/game/ControlPanel.tsx:45-57 | in a normal round the server accepts some lower-face bids that the panel refuses |
| ControlPanel.DisagreementExamples | src/components/game/ControlPanel.tsx:45-57 | 1×6 over 5×5, and 3×5 over 3×4: the panel allows them and the server refuses them |
| UserStats.DefaultNickname | src/lib/firebase-user.ts:88 | the default nickname is the address up to its first '@': a prefix without '@', the whole address when there is none |
| UserStats.NoStats | src/lib/firebase-user.ts:98-110 | every counter of a new profile is zero and there is no last win date |
| UserStats.InitializeUserProfile | src/lib/firebase-user.ts:81-129 | a new profile has empty statistics, sound and notifications on, the system theme, and the given or the default nickname |
| UserStats.Record | src/lib/firebase-user.ts:185-208 | each game adds one game played and its calls, dice and rounds; a win adds a win, extends the streak, stamps the date, and lifts the longest streak to at least the new streak; a loss resets the streak and keeps the wins and the longest streak |
| UserStats.UpdateUserStats | src/lib/firebase-user.ts:174-210 | a missing profile is left alone; otherwise the statistics become the recorded game and the id, email, nickname, avatar and preferences are kept |
| UserStats.NewProfileConsistent | src/lib/firebase-user.ts:98-110 | a new profile's statistics are consistent |
| UserStats.RecordKeepsConsistent | src/lib/firebase-user.ts:196-208 | the streak stays at most the longest streak, which stays at most the wins, which stay at most the games |
| UserStats.LongestNeverDecreases | src/lib/firebase-user.ts:196-208 | the longest streak never decreases |
| UserStats.WinRunStreak | src/lib/firebase-user.ts:196-204 | k wins in a row add k to the streak and to the wins, and leave the longest streak at least the new streak |
| UserStats.RoundedPercent | src/lib/firebase-user.ts:237 | `Math.round(n / d * 100)` is the integer nearest to 100·n/d, with halves rounded up |
| UserStats.SuccessRate | src/lib/firebase-user.ts:236-238 | zero without attempts; otherwise the rounded percentage |
| UserStats.SuccessRateBounds | src/lib/firebase-user.ts:235-253 | with successes between 0 and the attempts a rate lies in [0, 100]; it is 100 when all succeed and 0 when none do |
| UserStats.CalculateSuccessRates | src/lib/firebase-user.ts:235-253 | each of the three rates is zero without attempts, and otherwise the nearest percentage |
| UserStats.WinRateIsPercentage | src/lib/firebase-user.ts:244-246 | for consistent statistics the win rate is a percentage, and it is 100 exactly when at least 99.5% of games were won |
| UserStats.FirstGameRates | src/lib/firebase-user.ts:196-253 | after the first game the win rate is 100 for a win and 0 for a loss |
| Countdown.NextDateIsNextDay | src/pages/ComingSoon.tsx:15 | the proleptic Gregorian day count used to read the target date gives consecutive dates consecutive numbers, across month ends, leap and common Februaries, century years and year ends |
| Countdown.EpochIsDayZero | src/pages/ComingSoon.tsx:15 | the day count is zero on 1 January 1970, the epoch `getTime` counts from |
| Countdown.TargetIsLaunchInstant | src/pages/ComingSoon.tsx:15 | the constant 1756166400000 is midnight UTC starting 26 August 2025, which is 20:00 on 25 August 2025 at UTC-4 |
| Countdown.Decompose | src/pages/ComingSoon.tsx:21-30 | a non-positive difference shows zeros; otherwise hours < 24, minutes < 60, seconds < 60, and the units add up to the difference less under one second |
| Countdown.SplitBounds | src/pages/ComingSoon.tsx:22-25 | the four units add up to the difference minus its milliseconds |
| Countdown.UpdateCountdown | src/pages/ComingSoon.tsx:17-31 | after the target the countdown is zero; before it the units add up to the time left, short by under one second |
| Countdown.CountdownExamples | src/pages/ComingSoon.tsx:17-31 | one second before the target shows one second, one day before shows one day, and under a second shows zeros |
| Countdown.DecimalString | src/pages/ComingSoon.tsx:66 | `String(n)`: digits only, a single digit exactly below ten, and no leading zero |
| Countdown.ParseDecimalString | src/pages/ComingSoon.tsx:66 | reading the decimal string back gives the number |
| Countdown.PadStart2 | src/pages/ComingSoon.tsx:66 | `padStart(2, '0')`: at least two characters, the original at the end, and zeros in front |
| Countdown.Display | src/pages/ComingSoon.tsx:66 | a unit is shown with at least two digits, as '0' plus the digit exactly when below ten, starts with '0' only then, and reads back as its value |
| Countdown.LabelsOf | src/pages/ComingSoon.tsx:69-96 | each label is singular exactly when its value is 1 |
| Countdown.LabelsMatchDisplay | src/pages/ComingSoon.tsx:66-96 | each label is singular exactly when the number above it reads "01" |
| Theme.Parse | src/context/theme-context.tsx:31-34 | only "light", "dark" and "system" are themes, and a theme reads back as its name |
| Theme.ParseName | src/context/theme-context.tsx:31-34 | a theme's stored name parses back to the theme |
| Theme.Cycle | src/components/ui/theme-toggle.tsx:60-64 | a click moves light to dark, dark to system and system to light, so never leaves the theme unchanged |
| Theme.CycleThrice | src/components/ui/theme-toggle.tsx:60-64 | three clicks return to the starting theme, and two never do |
| Theme.IconOf | src/components/ui/theme-toggle.tsx:66-70 | the sun shows exactly for light and the moon exactly for dark |
| Theme.Label | src/components/ui/theme-toggle.tsx:72-76 | light is labelled "Light Mode", dark "Dark Mode" and system "System Theme", each exactly |
| Theme.LabelsDistinct | src/components/ui/theme-toggle.tsx:72-76 | different themes have different labels |
| Theme.Effective | src/context/theme-context.tsx:10-19 | light and dark are painted as chosen; system is dark exactly when the browser has the query and prefers dark |
| Theme.TriggerIcon | src/components/ui/theme-toggle.tsx:18-22 | the menu trigger shows the moon exactly when dark is painted, and never the monitor |
| Theme.TriggerAgreesWithToggle | src/components/ui/theme-toggle.tsx:18-22 | for an explicit light or dark choice the menu trigger and the inline toggle show the same icon |
| Theme.InitialTheme | src/context/theme-context.tsx:25-37 | the profile's theme wins; without one, a recognised stored name; otherwise system |
| Theme.UnknownStoredIgnored | src/context/theme-context.tsx:31-36 | an unrecognised stored string never becomes the theme |
| Theme.SyncFromProfile | src/context/theme-context.tsx:86-90 | the theme changes only to the profile's theme, and always when the profile has one |
| Theme.SetTheme | src/context/theme-context.tsx:93-112 | the new theme is stored by a name that parses back to it, and saved to the profile exactly when signed in |
| Theme.ChosenThemeSurvivesReload | src/context/theme-context.tsx:25-37 | a theme chosen while signed out is the theme the next visit starts with |
| DiceArea.InitialValues | src/components/game/DiceArea.tsx:22-28 | supplied values are cut to the dice count; without any, the dice count of fresh faces is rolled |
| DiceArea.MountResize | src/components/game/DiceArea.tsx:22-57 | the resize effect's first run leaves rolled or sufficient initial dice alone, and tops short supplied values up to the count with the supplied values in front |
| DiceArea.Resize | src/components/game/DiceArea.tsx:40-57 | the dice match the count; growing keeps the old dice as a prefix and adds draws, shrinking keeps the first dice |
| DiceArea.ResizeIdempotent | src/components/game/DiceArea.tsx:40-57 | resizing to the same count again changes nothing |
| DiceArea.ResizeKeepsFaces | src/components/game/DiceArea.tsx:40-57 | with fair draws, resizing keeps every die a face |
| DiceArea.HandleRoll | src/components/game/DiceArea.tsx:59-69 | a click is ignored while disabled or rolling; otherwise rolling starts with no die finished |
| DiceArea.RollTwiceSameAsOnce | src/components/game/DiceArea.tsx:59-60 | a second click while rolling changes nothing |
| DiceArea.DieRollCompleteAsWritten | src/components/game/DiceArea.tsx:71-92 | the finished die is written and counted through the queued updaters; at the last die rolling stops and the parent is handed the `diceValues` of the render the handler belongs to, fixed for the whole roll |
| DiceArea.StaleValuesReported | src/components/game/DiceArea.tsx:85-87 | a one-die panel rolling 3 over 5 reports 5 to the parent while showing 3 |
| DiceArea.DieRollComplete | src/components/game/DiceArea.tsx:71-92 | only the finished die changes and the finished count goes up by one; rolling stops and the parent is told the current values exactly when the count reaches the dice count |
| DiceArea.CompletionVersionsAgree | src/components/game/DiceArea.tsx:71-92 | the corrected and the as-written handlers leave the same panel |
| DiceArea.CompleteAllFaces | src/components/game/DiceArea.tsx:71-92 | finishing the first k dice in order writes exactly those faces and counts k completions |
| DiceArea.BatchVersionsAgree | src/components/game/DiceArea.tsx:71-92 | after any batch of completions both handlers leave the same panel, and the handler as written reports the rendered values whenever it reports |
| DiceArea.StaleBatchReported | src/components/game/DiceArea.tsx:85-87 | two dice showing 5 and 5 that finish as 3 and 4 are shown as 3 and 4, reported as 5 and 5 by the handler as written and as 3 and 4 by the corrected one |
| DiceArea.FullRollReportsFaces | src/components/game/DiceArea.tsx:71-92 | when the dice finish in position order, rolling stops and the parent hears exactly the faces rolled |
| DiceArea.CompleteInOrderFaces | src/components/game/DiceArea.tsx:71-92 | whatever order dice finish in, each finished die shows its new face and the others their old ones, every completion is counted, and the parent hears the panel's values exactly when the count reaches the dice count |
| DiceArea.FinishAnyOrderReportsFaces | src/components/game/DiceArea.tsx:71-92 | when every die finishes exactly once, in any order, rolling stops and the parent hears exactly the faces rolled |
| DiceArea.DisplayOrderReportsFaces | src/components/game/DiceArea.tsx:71-130 | dice finishing in display order, the order their animations start in, report exactly the faces rolled |
| DiceArea.Insert | src/components/game/DiceArea.tsx:95-97 | inserting a position adds exactly that position |
| DiceArea.InsertSorted | src/components/game/DiceArea.tsx:95-97 | inserting keeps the order sorted by face and stable |
| DiceArea.SortedIndices | src/components/game/DiceArea.tsx:95-97 | the display order is a permutation of the positions, sorted by face, with equal faces in position order |
| DiceArea.SortedIndicesPermutation | src/components/game/DiceArea.tsx:95-97 | every position appears exactly once |
| DiceArea.Summary | src/components/game/DiceArea.tsx:147-148 | the summary counts each face from 1 to 6, and a face shows exactly when some die has it |
| DiceArea.SummaryTotal | src/components/game/DiceArea.tsx:147-148 | the summary's counts add up to the dice showing a face from 1 to 6 |

## Left out

- Firestore: reads, writes, queries, subscriptions, server timestamps and
  `increment`. So are the lost-update races between clients that read, modify
  and write the same document. Each operation is a function from the document it
  read to the document it writes.
- The "Game not found" path when a document lookup by id fails. The model
  starts from the document. `JoinGame` on a completed game answers
  `GameNotFound`, because the room-code query only finds waiting and active
  games.
- `generateRoomCode`: uniqueness needs a database query. The room code is a
  parameter of `CreateGame`.
- `Math.random`: dice come from `Dice.Draws`. The avatar index is a parameter
  of `InitializeUserProfile`, below `AvatarCount`.
- UserStats.RoundedPercent: exact rational rounding. The source computes
  `Math.round(n / d * 100)` in floating point, which can land just below a
  half. For example, 57/200 gives 28 in JavaScript but 29 here.
- Animation, timers and rendering: the `setTimeout` calls, the auto-roll effect
  of the dice panel, and icons and class names beyond the theme icons.
- The direction picker of the bidding panel. `onSetDirection` is never acted on
  by the engine, and the round's direction stays 'up' unless set elsewhere.
- DiceArea.DieRollComplete: an index beyond the dice is excluded. JavaScript
  would extend the array, but the panel only passes positions of its own dice.
- DiceArea.SortedIndices: the count may not exceed the dice. Between a count
  change and the resize, JavaScript compares `undefined` values, and the
  resulting order is left to the engine.
- Key order of the players map: the engine visits players in
  `Object.keys(gameState.players)` order (firebase-game.ts lines 418, 506 and
  675), which is whatever order the store hands back. The model takes it to be
  the order of joining. `Lobby.Seat`, `Lobby.OpenRound`, `Rounds.RoundStarter`
  and the turn rotation rest on that assumption.
- Which roll completions fire: AnimatedDie.tsx is not part of this model. Its
  animation effect lists `isAnimating` among its dependencies and sets it to
  true when a roll starts. The re-render that follows runs the effect's cleanup,
  which clears the interval before its first tick. So, as written, no die
  reports at all. The effect also depends on the `onRollComplete` callback,
  which the dice panel recreates on every render. The completion members
  describe what the dice panel does when its handler is called. They take every
  die to report once, each through a handler of the render in which the roll
  started.
- The page that renders the bidding panel is not part of this model.
  `ControlPanel.PanelBid` takes the panel's `currentBid` to be the game's current
  wager, as count and face.
- DiceArea.InitialValues: the dice count is a natural number. A negative count
  given to `slice` would count from the end.
- Success rates: the dudo and calza rates carry no consistency facts, because
  the client reports successes and calls separately and nothing ties them
  together.
- `getUserProfile`, `updateUserProfile`, `updateUserActivity`,
  `getUserDisplayInfo`, the leaderboard, `subscribeToActiveGames` and
  `subscribeToGame`: these are storage plumbing with no logic of their own.
- Integer width: JavaScript numbers are doubles. Counts in a game stay far
  below 2^53, so the model uses unbounded integers.

## Findings

| source | as written | input that shows it | evidently intended | confidence | as-written member | corrected member |
|---|---|---|---|---|---|---|
| src/components/game/DiceArea.tsx:85-87 | when the last die finishes, the parent is handed `diceValues` from the render the handler belongs to, which holds none of the roll's new faces | one die showing 5 rolls a 3: the panel shows 3 and the parent is handed [5]; two dice showing 5 and 5 finish as 3 and 4 and the parent is handed [5, 5] | the parent gets the final values, as the comment at line 84 says | low, not executed; AnimatedDie.tsx, outside the model, appears to cancel every animation before it reports, so the handler may never be reached | DiceArea.DieRollCompleteAsWritten, DiceArea.StaleValuesReported, DiceArea.StaleBatchReported | DiceArea.DieRollComplete, DiceArea.FinishAnyOrderReportsFaces |

=== FILE: bidding.dfy ===
/** The server-side bid check of makeBid. */
module Bidding {
  import opened Wrappers
  import opened GameTypes

  /** The weight makeBid compares bids by: a bid on aces counts double. */
  function AceWeighted(count: int, value: int): int {
    count * (if value == 1 then 2 else 1)
  }

  /** A Palifico raise: one of count and value is kept and the other goes up. */
  predicate PalificoRaise(current: Wager, count: int, value: int) {
    || (value == current.value && count > current.count)
    || (count == current.count && value > current.value)
  }

  /** The checks of makeBid in the order it throws: `None` accepts the bid. */
  function CheckBid(current: Option<Wager>, isPalifico: bool, count: int, value: int): (r: Option<BidError>)
    ensures current.None? ==> r.None?
    ensures current.Some? && isPalifico ==> (r.None? <==> PalificoRaise(current.value, count, value))
    ensures current.Some? && isPalifico && value != current.value.value && count != current.value.count
            ==> r == Some(ChangedBoth)
    ensures current.Some? && isPalifico && value == current.value.value && count <= current.value.count
            ==> r == Some(MustIncreaseCount)
    ensures current.Some? && isPalifico && count == current.value.count && value < current.value.value
            ==> r == Some(MustIncreaseValue)
    ensures current.Some? && !isPalifico ==> r.None? || r == Some(NotHigher)
  {
    match current
    case None => None
    case Some(w) =>
      if isPalifico then
        if value != w.value && count != w.count then Some(ChangedBoth)
        else if value == w.value && count <= w.count then Some(MustIncreaseCount)
        else if count == w.count && value <= w.value then Some(MustIncreaseValue)
        else None
      else
        var currentTotal := AceWeighted(w.count, w.value);
        var newTotal := AceWeighted(count, value);
        if newTotal <= currentTotal && !(count > w.count && value >= w.value) then Some(NotHigher)
        else None
  }

  /** Bidding the current wager again is always refused. */
  lemma RepeatRefused(w: Wager, isPalifico: bool)
    ensures CheckBid(Some(w), isPalifico, w.count, w.value).Some?
  {
  }

  /** In a normal round a higher count on the same or a higher face is accepted. */
  lemma NormalCountRaiseAccepted(w: Wager, count: int, value: int)
    requires count > w.count && value >= w.value
    ensures CheckBid(Some(w), false, count, value).None?
  {
  }

  /** In a normal round a bid that keeps the count (at least one) is accepted only
      when it moves onto aces from another face: raising the face alone never is. */
  lemma NormalSameCount(w: Wager, value: int)
    requires w.count >= 1
    ensures CheckBid(Some(w), false, w.count, value).None? <==> value == 1 && w.value != 1
  {
    if value == 1 && w.value != 1 {
      assert AceWeighted(w.count, value) == 2 * w.count;
    }
  }

  /** Moving onto aces from another face needs more than half the current count. */
  lemma NormalOntoAces(w: Wager, count: int)
    requires 2 <= w.value <= 6
    ensures CheckBid(Some(w), false, count, 1).None? <==> 2 * count > w.count
  {
  }

  /** Leaving aces for another face only needs a higher count: the doubled weight
      of the ace bid is not required. */
  lemma NormalOffAces(w: Wager, count: int, value: int)
    requires w.value == 1 && w.count >= 0 && 2 <= value <= 6
    ensures CheckBid(Some(w), false, count, value).None? <==> count > w.count
  {
  }

  /** An accepted normal-round bid raises the ace-weighted total or the count. */
  lemma NormalAcceptedRaises(w: Wager, count: int, value: int)
    requires CheckBid(Some(w), false, count, value).None?
    ensures AceWeighted(count, value) > AceWeighted(w.count, w.value) || count > w.count
  {
  }
}

=== FILE: control_panel.dfy ===
/** The bidding panel: the client's own bid check, the count stepper, the face
    buttons, and how its rule compares with the server's. */
module ControlPanel {
  import opened Wrappers
  import opened GameTypes
  import opened Bidding
  import opened Rounds
  import opened Dice

  /** The bid shown as "current bid to beat". */
  datatype Bid = Bid(count: int, value: int)

  datatype Selection = Selection(count: int, value: int)

  /** The panel's first selection: the current bid, with 0 or no bid read as 1. */
  function InitialSelection(currentBid: Option<Bid>): (s: Selection)
    ensures currentBid.None? ==> s == Selection(1, 1)
    ensures currentBid.Some? && currentBid.value.count != 0 ==> s.count == currentBid.value.count
    ensures currentBid.Some? && currentBid.value.value != 0 ==> s.value == currentBid.value.value
    ensures s.count != 0 && s.value != 0
  {
    match currentBid
    case None => Selection(1, 1)
    case Some(b) => Selection(if b.count != 0 then b.count else 1, if b.value != 0 then b.value else 1)
  }

  /** isValidBid. */
  function IsValidBid(currentBid: Option<Bid>, isPalifico: bool, s: Selection): (ok: bool)
    ensures currentBid.None? ==> ok
    ensures currentBid.Some? && isPalifico ==>
              (ok <==> s.value == currentBid.value.value && s.count > currentBid.value.count)
    ensures currentBid.Some? && !isPalifico && s.value > currentBid.value.value ==> ok
    ensures currentBid.Some? && !isPalifico && s.value == currentBid.value.value ==>
              (ok <==> s.count > currentBid.value.count)
    ensures currentBid.Some? && !isPalifico && s.value < currentBid.value.value ==> !ok
  {
    match currentBid
    case None => true
    case Some(b) =>
      if isPalifico then s.value == b.value && s.count > b.count
      else if s.value > b.value then true
      else s.value == b.value && s.count > b.count
  }

  /** handleBidSubmit: the bid handed to `onBid`, if any. */
  function SubmitBid(currentBid: Option<Bid>, isPalifico: bool, disabled: bool, s: Selection): (r: Option<Bid>)
    ensures r.Some? <==> IsValidBid(currentBid, isPalifico, s) && !disabled
    ensures r.Some? ==> r.value == Bid(s.count, s.value)
  {
    if IsValidBid(currentBid, isPalifico, s) && !disabled then Some(Bid(s.count, s.value)) else None
  }

  /** adjustCount: `Math.max(1, Math.min(totalDice, count + delta))`. */
  function AdjustCount(count: int, delta: int, totalDice: int): (r: int)
    ensures r >= 1
    ensures totalDice >= 1 ==> r <= totalDice
    ensures 1 <= count + delta <= totalDice ==> r == count + delta
    ensures count + delta > totalDice >= 1 ==> r == totalDice
    ensures count + delta < 1 ==> r == 1
  {
    var capped := if totalDice < count + delta then totalDice else count + delta;
    if 1 > capped then 1 else capped
  }

  /** Stepping up then down returns to the count, except at the top, where the
      up step is absorbed; from a count in range the stepper never leaves it. */
  lemma StepUpThenDown(count: int, totalDice: int)
    requires 1 <= count <= totalDice
    ensures count < totalDice ==> AdjustCount(AdjustCount(count, 1, totalDice), -1, totalDice) == count
    ensures count == totalDice ==> AdjustCount(AdjustCount(count, 1, totalDice), -1, totalDice) == Max(1, count - 1)
    ensures 1 <= AdjustCount(count, 1, totalDice) <= totalDice && 1 <= AdjustCount(count, -1, totalDice) <= totalDice
  {
  }

  function Max(a: int, b: int): int {
    if a >= b then a else b
  }

  /** The panel opens on the current bid itself, which neither the panel nor
      the server accepts as a new bid; with no bid it opens on one ace, which
      both accept. */
  lemma InitialSelectionRefused(bidder: PlayerId, currentBid: Option<Bid>, isPalifico: bool, disabled: bool)
    requires currentBid.Some? ==> currentBid.value.count != 0 && currentBid.value.value != 0
    ensures currentBid.Some? ==> !IsValidBid(currentBid, isPalifico, InitialSelection(currentBid))
    ensures currentBid.Some? ==> SubmitBid(currentBid, isPalifico, disabled, InitialSelection(currentBid)).None?
    ensures currentBid.Some? ==> !ServerAccepts(bidder, currentBid, isPalifico, InitialSelection(currentBid))
    ensures currentBid.None? ==> IsValidBid(currentBid, isPalifico, InitialSelection(currentBid))
    ensures currentBid.None? ==> ServerAccepts(bidder, currentBid, isPalifico, InitialSelection(currentBid))
  {
  }

  /** A face button is disabled in Palifico once there is a bid, unless it shows
      the bid's face. */
  function FaceDisabled(isPalifico: bool, currentBid: Option<Bid>, face: int): bool {
    isPalifico && currentBid.Some? && face != currentBid.value.value
  }

  /** Clicking a face button. */
  function SelectFace(s: Selection, face: int, isPalifico: bool, currentBid: Option<Bid>, disabled: bool): (r: Selection)
    ensures r.count == s.count
    ensures r.value == face || r == s
    ensures isPalifico && currentBid.Some? ==> (r.value == face ==> face == currentBid.value.value || s.value == face)
    ensures !disabled && !FaceDisabled(isPalifico, currentBid, face) ==> r.value == face
    ensures disabled || FaceDisabled(isPalifico, currentBid, face) ==> r == s
  {
    if !FaceDisabled(isPalifico, currentBid, face) && !disabled then s.(value := face) else s
  }

  /** In Palifico with a bid, face clicks never move the selection off the bid's
      face once it is there. */
  lemma {:induction false} PalificoFaceLocked(s: Selection, faces: seq<int>, currentBid: Bid, disabled: bool)
    requires s.value == currentBid.value
    ensures SelectAll(s, faces, true, Some(currentBid), disabled).value == currentBid.value
  {
    if |faces| > 0 {
      PalificoFaceLocked(SelectFace(s, faces[0], true, Some(currentBid), disabled), faces[1..], currentBid, disabled);
    }
  }

  /** A run of face clicks. */
  function SelectAll(s: Selection, faces: seq<int>, isPalifico: bool, currentBid: Option<Bid>, disabled: bool): Selection
    decreases |faces|
  {
    if |faces| == 0 then s
    else SelectAll(SelectFace(s, faces[0], isPalifico, currentBid, disabled), faces[1..], isPalifico, currentBid, disabled)
  }

  /** The bid button is enabled only on the player's turn with a valid selection;
      dudo and calza need a current bid. */
  predicate BidEnabled(currentBid: Option<Bid>, isPalifico: bool, isMyTurn: bool, disabled: bool, s: Selection) {
    !disabled && IsValidBid(currentBid, isPalifico, s) && isMyTurn
  }

  predicate ChallengeEnabled(currentBid: Option<Bid>, disabled: bool) {
    !disabled && currentBid.Some?
  }

  /** Pressing an enabled bid button sends the selection; on the player's turn
      on an enabled panel, the button is enabled exactly when the selection
      would be sent. */
  lemma BidButtonSends(currentBid: Option<Bid>, isPalifico: bool, isMyTurn: bool, disabled: bool, s: Selection)
    ensures BidEnabled(currentBid, isPalifico, isMyTurn, disabled, s) ==>
              SubmitBid(currentBid, isPalifico, disabled, s) == Some(Bid(s.count, s.value))
    ensures isMyTurn ==> (BidEnabled(currentBid, isPalifico, isMyTurn, disabled, s) <==>
                          SubmitBid(currentBid, isPalifico, disabled, s).Some?)
    ensures !isMyTurn ==> !BidEnabled(currentBid, isPalifico, isMyTurn, disabled, s)
  {
  }

  /** The bid the panel shows for the game's current wager. */
  function PanelBid(w: Option<Wager>): (b: Option<Bid>)
    ensures b.Some? <==> w.Some?
    ensures b.Some? ==> b.value == Bid(w.value.count, w.value.value)
  {
    match w
    case None => None
    case Some(x) => Some(Bid(x.count, x.value))
  }

  /** On an enabled panel showing the game's current wager, the dudo and calza
      buttons are enabled exactly when the engine would not refuse the call for
      want of a wager. */
  lemma ChallengeReachesServer(g: Game, caller: PlayerId, draws: Draws, disabled: bool)
    requires GameValid(g) && g.gameState.Some?
    ensures var shown := PanelBid(g.gameState.value.currentWager);
            && (ChallengeEnabled(shown, disabled) ==> CallDudo(g, caller, draws) != Err(NoWager))
            && (ChallengeEnabled(shown, disabled) ==> CallCalza(g, caller, draws) != Err(NoWager))
            && (!disabled && CallDudo(g, caller, draws) != Err(NoWager) ==> ChallengeEnabled(shown, disabled))
            && (!disabled && CallCalza(g, caller, draws) != Err(NoWager) ==> ChallengeEnabled(shown, disabled))
  {
  }

  // ------------------------------------------------ the panel's rule against the server's

  /** The server's verdict on the selection, for a bid placed by `bidder`. */
  predicate ServerAccepts(bidder: PlayerId, currentBid: Option<Bid>, isPalifico: bool, s: Selection) {
    var current := match currentBid case None => None case Some(b) => Some(Wager(bidder, b.count, b.value));
    CheckBid(current, isPalifico, s.count, s.value).None?
  }

  /** The two rules agree when there is no bid and on a higher count of the same
      face. */
  lemma RulesAgree(bidder: PlayerId, currentBid: Option<Bid>, isPalifico: bool, s: Selection)
    requires currentBid.None? || (s.value == currentBid.value.value && s.count > currentBid.value.count)
    ensures IsValidBid(currentBid, isPalifico, s)
    ensures ServerAccepts(bidder, currentBid, isPalifico, s)
  {
  }

  /** In Palifico every bid the panel allows is accepted by the server, which also
      accepts a higher face at the same count. */
  lemma PalificoPanelStricter(bidder: PlayerId, b: Bid, s: Selection)
    ensures IsValidBid(Some(b), true, s) ==> ServerAccepts(bidder, Some(b), true, s)
    ensures ServerAccepts(bidder, Some(b), true, s) && !IsValidBid(Some(b), true, s) <==>
              s.count == b.count && s.value > b.value
  {
  }

  /** In a normal round the panel lets any higher face through, but the server
      refuses a higher non-ace face whose count does not rise. */
  lemma HigherFaceDisagreement(bidder: PlayerId, b: Bid, s: Selection)
    requires 2 <= b.value < s.value && s.count <= b.count
    ensures IsValidBid(Some(b), false, s)
    ensures !ServerAccepts(bidder, Some(b), false, s)
  {
  }

  /** In a normal round the server accepts a lower face whose count beats the
      current ace-weighted total, which the panel refuses. */
  lemma LowerFaceDisagreement(bidder: PlayerId, b: Bid, s: Selection)
    requires 2 <= s.value < b.value && s.count > b.count
    ensures !IsValidBid(Some(b), false, s)
    ensures ServerAccepts(bidder, Some(b), false, s)
  {
  }

  /** Two concrete bids the panel offers and the server refuses. */
  lemma DisagreementExamples(bidder: PlayerId)
    ensures IsValidBid(Some(Bid(5, 5)), false, Selection(1, 6)) && !ServerAccepts(bidder, Some(Bid(5, 5)), false, Selection(1, 6))
    ensures IsValidBid(Some(Bid(3, 4)), false, Selection(3, 5)) && !ServerAccepts(bidder, Some(Bid(3, 4)), false, Selection(3, 5))
  {
  }
}

=== FILE: countdown.dfy ===
/** The launch countdown: the milliseconds left until the launch instant split
    into days, hours, minutes and seconds, and their two-digit display. The
    current time is an input. */
module Countdown {
  const SecondMillis := 1000
  const MinuteMillis := 60 * SecondMillis
  const HourMillis := 60 * MinuteMillis
  const DayMillis := 24 * HourMillis

  /** 2025-08-25 20:00 at UTC-4, in milliseconds since the Unix epoch. */
  const TargetMillis := 1756166400000

  predicate IsLeapYear(y: int) {
    y % 4 == 0 && (y % 100 != 0 || y % 400 == 0)
  }

  function MonthLength(y: int, m: int): int
    requires 1 <= m <= 12
  {
    if m == 2 then (if IsLeapYear(y) then 29 else 28)
    else if m == 4 || m == 6 || m == 9 || m == 11 then 30
    else 31
  }

  predicate ValidDate(y: int, m: int, d: int) {
    y >= 1 && 1 <= m <= 12 && 1 <= d <= MonthLength(y, m)
  }

  /** Days from 1970-01-01 to 1 March of year `y`, counting 400-year eras of
      146097 days from 0000-03-01. */
  function MarchYearStart(y: nat): int {
    var yoe := y % 400;
    (y / 400) * 146097 + yoe * 365 + yoe / 4 - yoe / 100 - 719468
  }

  /** Days from 1 March to the first of month `m`, whose index from March is
      `mp`. */
  function MonthOffset(mp: int): int {
    (153 * mp + 2) / 5
  }

  /** The days from 1970-01-01 to a proleptic Gregorian date. The year is taken
      to start in March so that the leap day ends it. */
  function DaysFromCivil(y: int, m: int, d: int): int
    requires ValidDate(y, m, d)
  {
    var y' := if m <= 2 then y - 1 else y;
    var mp := if m > 2 then m - 3 else m + 9;
    MarchYearStart(y') + MonthOffset(mp) + d - 1
  }

  /** The day after a date, rolling over the month and the year. */
  function NextDate(y: int, m: int, d: int): (r: (int, int, int))
    requires ValidDate(y, m, d)
    ensures ValidDate(r.0, r.1, r.2)
  {
    if d < MonthLength(y, m) then (y, m, d + 1)
    else if m < 12 then (y, m + 1, 1)
    else (y + 1, 1, 1)
  }

  /** A March-to-February year has 366 days exactly when its February is a
      leap February. */
  lemma MarchYearLength(y: nat)
    ensures MarchYearStart(y + 1) == MarchYearStart(y) + 365 + (if IsLeapYear(y + 1) then 1 else 0)
  {
    var e := y / 400;
    var r := y % 400;
    EraSplit(y, e, r);
    if r < 399 {
      EraSplit(y + 1, e, r + 1);
      StepDiv(r);
      ShiftMod(y + 1, r + 1, e);
    } else {
      EraSplit(y + 1, e + 1, 0);
      ShiftMod(y + 1, 0, e + 1);
    }
  }

  /** The quotient and remainder by 400 are determined by any split. */
  lemma EraSplit(y: nat, e: int, r: int)
    requires 0 <= r < 400 && (y == 400 * e + r || (e == y / 400 && r == y % 400))
    ensures y / 400 == e && y % 400 == r && y == 400 * e + r
  {
  }

  /** Adding a multiple of 400 keeps the remainders by 4 and by 100. */
  lemma ShiftMod(y: int, r: int, e: int)
    requires y == 400 * e + r
    ensures y % 4 == r % 4 && y % 100 == r % 100
  {
    assert y == 4 * (100 * e) + r;
    assert y == 100 * (4 * e) + r;
  }

  /** Increasing the dividend by one raises the quotients by 4 and by 100
      exactly at a multiple. */
  lemma StepDiv(r: nat)
    ensures (r + 1) / 4 == r / 4 + (if (r + 1) % 4 == 0 then 1 else 0)
    ensures (r + 1) / 100 == r / 100 + (if (r + 1) % 100 == 0 then 1 else 0)
  {
  }

  /** Consecutive dates are consecutive day numbers. */
  lemma {:induction false} NextDateIsNextDay(y: int, m: int, d: int)
    requires ValidDate(y, m, d)
    ensures var n := NextDate(y, m, d); DaysFromCivil(n.0, n.1, n.2) == DaysFromCivil(y, m, d) + 1
  {
    if d == MonthLength(y, m) && m == 2 {
      MarchYearLength(y - 1);
    }
  }

  /** The day count starts at the epoch. */
  lemma EpochIsDayZero()
    ensures DaysFromCivil(1970, 1, 1) == 0
  {
  }

  /** The target is 20:00 on 25 August 2025 four hours behind UTC, which is
      midnight UTC starting 26 August 2025. */
  lemma TargetIsLaunchInstant()
    ensures NextDate(2025, 8, 25) == (2025, 8, 26)
    ensures TargetMillis == DaysFromCivil(2025, 8, 26) * DayMillis
    ensures TargetMillis == DaysFromCivil(2025, 8, 25) * DayMillis + 20 * HourMillis + 4 * HourMillis
  {
  }

  datatype TimeRemaining = TimeRemaining(days: nat, hours: nat, minutes: nat, seconds: nat)

  /** The sum of the units a countdown shows, in milliseconds. */
  function Millis(t: TimeRemaining): int {
    t.days * DayMillis + t.hours * HourMillis + t.minutes * MinuteMillis + t.seconds * SecondMillis
  }

  /** updateCountdown's split of a difference in milliseconds: all zeros when the
      target has passed; otherwise whole days, then the hours, minutes and seconds
      of the remainder. The difference is positive in that branch, so
      JavaScript's remainder agrees with Dafny's. */
  function Decompose(difference: int): (t: TimeRemaining)
    ensures difference <= 0 ==> t == TimeRemaining(0, 0, 0, 0)
    ensures t.hours < 24 && t.minutes < 60 && t.seconds < 60
    ensures difference > 0 ==> Millis(t) <= difference < Millis(t) + SecondMillis
  {
    if difference > 0 then
      var days := difference / DayMillis;
      var hours := (difference % DayMillis) / HourMillis;
      var minutes := (difference % HourMillis) / MinuteMillis;
      var seconds := (difference % MinuteMillis) / SecondMillis;
      SplitBounds(difference);
      TimeRemaining(days, hours, minutes, seconds)
    else
      TimeRemaining(0, 0, 0, 0)
  }

  /** Each unit's remainder is the remainder of the next larger unit's
      remainder. */
  lemma HourRemainder(d: int)
    requires d > 0
    ensures d % HourMillis == (d % DayMillis) % HourMillis
  {
    var x := d % DayMillis;
    ModUnique(d, (d / DayMillis) * 24 + x / HourMillis, x % HourMillis, HourMillis);
  }

  lemma MinuteRemainder(d: int)
    requires d > 0
    ensures d % MinuteMillis == (d % HourMillis) % MinuteMillis
  {
    var x := d % HourMillis;
    ModUnique(d, (d / HourMillis) * 60 + x / MinuteMillis, x % MinuteMillis, MinuteMillis);
  }

  lemma SecondRemainder(d: int)
    requires d > 0
    ensures d % SecondMillis == (d % MinuteMillis) % SecondMillis
  {
    var x := d % MinuteMillis;
    ModUnique(d, (d / MinuteMillis) * 60 + x / SecondMillis, x % SecondMillis, SecondMillis);
  }

  /** The remainder of `q * n + r` is `r` when `0 <= r < n`. */
  lemma ModUnique(d: int, q: int, r: int, n: int)
    requires n > 0 && 0 <= r < n && d == q * n + r
    ensures d % n == r
  {
    var k := d / n;
    assert d == k * n + d % n;
    assert (q - k) * n == d % n - r;
    MultipleInRange(q - k, n);
  }

  /** The only multiple of `n` strictly between `-n` and `n` is zero. */
  lemma MultipleInRange(m: int, n: int)
    requires n > 0 && -n < m * n < n
    ensures m == 0
  {
    if m >= 1 {
      MulMonotone(m, n);
    } else if m <= -1 {
      MulMonotone(-m, n);
    }
  }

  lemma MulMonotone(m: int, n: int)
    requires m >= 1 && n > 0
    ensures m * n >= n
  {
  }

  /** The four units add up to the difference less its sub-second part. */
  lemma SplitBounds(d: int)
    requires d > 0
    ensures (d % DayMillis) / HourMillis < 24
    ensures (d % HourMillis) / MinuteMillis < 60
    ensures (d % MinuteMillis) / SecondMillis < 60
    ensures (d / DayMillis) * DayMillis + ((d % DayMillis) / HourMillis) * HourMillis
            + ((d % HourMillis) / MinuteMillis) * MinuteMillis
            + ((d % MinuteMillis) / SecondMillis) * SecondMillis
            == d - d % SecondMillis
  {
    HourRemainder(d);
    MinuteRemainder(d);
    SecondRemainder(d);
  }

  /** The countdown shown at time `now`. */
  function UpdateCountdown(now: int): (t: TimeRemaining)
    ensures now >= TargetMillis ==> t == TimeRemaining(0, 0, 0, 0)
    ensures now < TargetMillis ==> Millis(t) <= TargetMillis - now < Millis(t) + SecondMillis
  {
    Decompose(TargetMillis - now)
  }

  /** One second before the target the countdown shows a single second, and one
      full day before it a single day. */
  lemma CountdownExamples()
    ensures UpdateCountdown(TargetMillis - 1000) == TimeRemaining(0, 0, 0, 1)
    ensures UpdateCountdown(TargetMillis - DayMillis) == TimeRemaining(1, 0, 0, 0)
    ensures UpdateCountdown(TargetMillis - 999) == TimeRemaining(0, 0, 0, 0)
  {
  }

  /** The decimal digit character of `d`. */
  function DigitChar(d: nat): (c: char)
    requires d < 10
    ensures '0' <= c <= '9'
  {
    (48 + d) as char
  }

  function DigitValue(c: char): nat
    requires '0' <= c <= '9'
  {
    (c as int) - 48
  }

  /** `String(n)` for a non-negative integer. */
  function DecimalString(n: nat): (s: string)
    ensures 1 <= |s|
    ensures forall i :: 0 <= i < |s| ==> '0' <= s[i] <= '9'
    ensures |s| == 1 <==> n < 10
    ensures |s| > 1 ==> s[0] != '0'
  {
    if n < 10 then [DigitChar(n)] else DecimalString(n / 10) + [DigitChar(n % 10)]
  }

  /** The value of a string of decimal digits. */
  function ParseDecimal(s: string): nat
    requires forall i :: 0 <= i < |s| ==> '0' <= s[i] <= '9'
  {
    if |s| == 0 then 0 else ParseDecimal(s[..|s| - 1]) * 10 + DigitValue(s[|s| - 1])
  }

  /** Reading the decimal string back gives the number. */
  lemma {:induction false} ParseDecimalString(n: nat)
    ensures ParseDecimal(DecimalString(n)) == n
  {
    if n >= 10 {
      var s := DecimalString(n);
      assert s[..|s| - 1] == DecimalString(n / 10);
      ParseDecimalString(n / 10);
    }
  }

  /** `padStart(2, '0')`: a leading '0' for a one-character string. */
  function PadStart2(s: string): (r: string)
    ensures |r| == if |s| >= 2 then |s| else 2
    ensures r[|r| - |s|..] == s
    ensures forall i :: 0 <= i < |r| - |s| ==> r[i] == '0'
  {
    if |s| >= 2 then s else seq(2 - |s|, _ => '0') + s
  }

  /** A displayed unit: always at least two digits, zero-padded exactly for
      values below ten, and it reads back as the value. */
  function Display(n: nat): (r: string)
    ensures |r| >= 2
    ensures n < 10 <==> r == ['0', DigitChar(n % 10)]
    ensures r[0] == '0' <==> n < 10
    ensures forall i :: 0 <= i < |r| ==> '0' <= r[i] <= '9'
    ensures ParseDecimal(r) == n
  {
    var s := DecimalString(n);
    ParseDecimalString(n);
    if n < 10 then
      assert ParseDecimal(['0', DigitChar(n)][..1]) == 0;
      PadStart2(s)
    else
      PadStart2(s)
  }

  /** The label under a unit: singular exactly when the value is 1. */
  function UnitLabel(value: nat, singular: string, plural: string): string {
    if value == 1 then singular else plural
  }

  datatype Labels = Labels(days: string, hours: string, minutes: string, seconds: string)

  /** The label under a unit is singular exactly when the unit shows "01". */
  lemma LabelsMatchDisplay(t: TimeRemaining)
    ensures LabelsOf(t).days == "Day" <==> Display(t.days) == "01"
    ensures LabelsOf(t).hours == "Hour" <==> Display(t.hours) == "01"
    ensures LabelsOf(t).minutes == "Minute" <==> Display(t.minutes) == "01"
    ensures LabelsOf(t).seconds == "Second" <==> Display(t.seconds) == "01"
  {
    ShowsOneIff(t.days);
    ShowsOneIff(t.hours);
    ShowsOneIff(t.minutes);
    ShowsOneIff(t.seconds);
  }

  lemma ShowsOneIff(n: nat)
    ensures Display(n) == "01" <==> n == 1
  {
  }

  function LabelsOf(t: TimeRemaining): (l: Labels)
    ensures l.days == "Day" <==> t.days == 1
    ensures l.hours == "Hour" <==> t.hours == 1
    ensures l.minutes == "Minute" <==> t.minutes == 1
    ensures l.seconds == "Second" <==> t.seconds == 1
    ensures l.days in {"Day", "Days"} && l.hours in {"Hour", "Hours"}
    ensures l.minutes in {"Minute", "Minutes"} && l.seconds in {"Second", "Seconds"}
  {
    Labels(UnitLabel(t.days, "Day", "Days"), UnitLabel(t.hours, "Hour", "Hours"),
           UnitLabel(t.minutes, "Minute", "Minutes"), UnitLabel(t.seconds, "Second", "Seconds"))
  }
}

=== FILE: dealing.dfy ===
/** Handing out freshly rolled dice to the players, in key order. */
module Dealing {
  import opened GameTypes
  import opened Dice

  /** startGame rolls for every alive player; startNewRound rolls for alive players
      who still hold dice and clears everybody else's. */
  datatype DealRule = OpeningDeal | RoundDeal

  /** The `length` passed to `Array.from` for this player. */
  function DealSize(rule: DealRule, p: Player): int {
    match rule
    case OpeningDeal => p.diceCount
    case RoundDeal => if p.status == Alive && p.diceCount > 0 then p.diceCount else 0
  }

  /** The number of dice the player ends up holding. */
  function Dealt(rule: DealRule, p: Player): nat {
    if DealSize(rule, p) > 0 then DealSize(rule, p) else 0
  }

  /** Give each listed player, in turn, the next draws of the random source. */
  function Deal(ids: seq<PlayerId>, players: map<PlayerId, Player>, rule: DealRule, draws: Draws, offset: nat)
    : (r: map<PlayerId, Player>)
    decreases |ids|
    ensures r.Keys == players.Keys
    ensures forall id :: id in players ==> Standing(r[id]) == Standing(players[id])
    ensures forall id :: id in players && id !in ids ==> r[id] == players[id]
    ensures forall id :: id in players && id in ids ==> |r[id].currentDice| == Dealt(rule, players[id])
    ensures FairDraws(draws) ==> forall id :: id in players && id in ids ==> AllFaces(r[id].currentDice)
  {
    if |ids| == 0 then players
    else if ids[0] in players then
      var p := players[ids[0]];
      var dice := Roll(DealSize(rule, p), draws, offset);
      Deal(ids[1..], players[ids[0] := p.(currentDice := dice)], rule, draws, offset + |dice|)
    else Deal(ids[1..], players, rule, draws, offset)
  }
}

=== FILE: dice.dfy ===
/** Dice faces, the random-number source, and face tallies. */
module Dice {

  /** The source of randomness: `draws(k)` is the face produced by the k-th
      `Math.floor(Math.random() * 6) + 1` the program evaluates. */
  type Draws = nat -> int

  /** Every draw is a die face, as `Math.floor(Math.random() * 6) + 1` guarantees. */
  ghost predicate FairDraws(draws: Draws) {
    forall k: nat :: 1 <= draws(k) <= 6
  }

  predicate IsFace(d: int) {
    1 <= d <= 6
  }

  predicate AllFaces(dice: seq<int>) {
    forall i :: 0 <= i < |dice| ==> IsFace(dice[i])
  }

  /** `Array.from({ length: count }, roll)`: `count` consecutive draws starting at
      `offset`; a non-positive length gives the empty array. */
  function Roll(count: int, draws: Draws, offset: nat): (dice: seq<int>)
    ensures |dice| == (if count > 0 then count else 0)
    ensures forall i :: 0 <= i < |dice| ==> dice[i] == draws(offset + i)
    ensures FairDraws(draws) ==> AllFaces(dice)
  {
    seq(if count > 0 then count else 0, i requires 0 <= i => draws(offset + i))
  }

  /** The number of positions of `dice` that show `face`. */
  function Occurrences(dice: seq<int>, face: int): (n: nat)
    ensures n <= |dice|
    ensures n == 0 <==> face !in dice
  {
    if |dice| == 0 then 0
    else (if dice[0] == face then 1 else 0) + Occurrences(dice[1..], face)
  }

  lemma {:induction false} OccurrencesAppend(a: seq<int>, b: seq<int>, face: int)
    ensures Occurrences(a + b, face) == Occurrences(a, face) + Occurrences(b, face)
  {
    if |a| == 0 {
      assert a + b == b;
    } else {
      assert (a + b)[1..] == a[1..] + b;
      OccurrencesAppend(a[1..], b, face);
    }
  }
}

=== FILE: dice_area.dfy ===
/** The player's dice panel: its initial dice, the resize when the dice count
    changes, the roll and roll-completion handlers, the sorted display order and
    the per-face summary. Random faces come from `Dice.Draws`. */
module DiceArea {
  import opened Wrappers
  import opened Dice

  datatype PanelState = PanelState(values: seq<int>, isRolling: bool, completedRolls: int)

  function Min(a: int, b: int): int {
    if a <= b then a else b
  }

  /** The initial dice: the first `diceCount` supplied values when any are
      supplied, otherwise `diceCount` random faces. */
  function InitialValues(initialValues: seq<int>, diceCount: nat, draws: Draws): (v: seq<int>)
    ensures |initialValues| > 0 ==> v == initialValues[..Min(|initialValues|, diceCount)]
    ensures |initialValues| == 0 ==> |v| == diceCount && (FairDraws(draws) ==> AllFaces(v))
  {
    if |initialValues| > 0 then initialValues[..Min(|initialValues|, diceCount)]
    else Roll(diceCount, draws, 0)
  }

  /** The dice-count effect: new random dice are appended when the count grows
      and the tail is dropped when it shrinks. */
  function Resize(prev: seq<int>, diceCount: nat, draws: Draws, offset: nat): (v: seq<int>)
    ensures |v| == diceCount
    ensures diceCount >= |prev| ==> v[..|prev|] == prev
    ensures diceCount <= |prev| ==> v == prev[..diceCount]
    ensures forall i :: |prev| <= i < diceCount ==> v[i] == draws(offset + i - |prev|)
  {
    if |prev| == diceCount then prev
    else if diceCount > |prev| then prev + Roll(diceCount - |prev|, draws, offset)
    else prev[..diceCount]
  }

  /** On mount the dice-count effect runs once over the initial dice: it leaves
      them alone when they were rolled or cover the count, and otherwise tops
      them up to the count, keeping the supplied values in front. */
  lemma MountResize(initialValues: seq<int>, diceCount: nat, draws: Draws, offset: nat)
    ensures |initialValues| == 0 || |initialValues| >= diceCount ==>
              Resize(InitialValues(initialValues, diceCount, draws), diceCount, draws, offset) == InitialValues(initialValues, diceCount, draws)
    ensures 0 < |initialValues| < diceCount ==>
              Resize(InitialValues(initialValues, diceCount, draws), diceCount, draws, offset)[..|initialValues|] == initialValues
    ensures |Resize(InitialValues(initialValues, diceCount, draws), diceCount, draws, offset)| == diceCount
  {
  }

  /** Resizing to the same count again changes nothing. */
  lemma ResizeIdempotent(prev: seq<int>, diceCount: nat, draws: Draws, offset: nat, offset2: nat)
    ensures Resize(Resize(prev, diceCount, draws, offset), diceCount, draws, offset2) == Resize(prev, diceCount, draws, offset)
  {
  }

  /** Fair draws keep the panel's dice faces through a resize. */
  lemma ResizeKeepsFaces(prev: seq<int>, diceCount: nat, draws: Draws, offset: nat)
    requires AllFaces(prev) && FairDraws(draws)
    ensures AllFaces(Resize(prev, diceCount, draws, offset))
  {
    var v := Resize(prev, diceCount, draws, offset);
    forall i | 0 <= i < |v|
      ensures IsFace(v[i])
    {
      if i >= |prev| {
        assert v[i] == draws(offset + i - |prev|);
      } else {
        assert v[i] == prev[i];
      }
    }
  }

  /** handleRoll: ignored while disabled or already rolling; otherwise starts a
      roll with no die finished. */
  function HandleRoll(st: PanelState, disabled: bool): (r: PanelState)
    ensures disabled || st.isRolling ==> r == st
    ensures !disabled && !st.isRolling ==> r == PanelState(st.values, true, 0)
  {
    if disabled || st.isRolling then st else st.(isRolling := true, completedRolls := 0)
  }

  /** A second click while rolling is ignored. */
  lemma RollTwiceSameAsOnce(st: PanelState, disabled: bool)
    ensures HandleRoll(HandleRoll(st, disabled), disabled) == HandleRoll(st, disabled)
  {
  }

  /** What one finished die produces: the new panel state and, when it was the
      last die, the values handed to the parent. */
  datatype Completion = Completion(state: PanelState, notified: Option<seq<int>>)

  /** handleDieRollComplete as written. The state updates go through the
      queued updaters and see every earlier write, but the parent is handed
      `rendered`, the `diceValues` the handler closed over when its render ran;
      the writes of the roll in progress are not in it. */
  function DieRollCompleteAsWritten(st: PanelState, rendered: seq<int>, diceCount: int, index: int, value: int): (c: Completion)
    requires 0 <= index < |st.values|
    ensures c.state.values == st.values[index := value]
    ensures c.state.completedRolls == st.completedRolls + 1
    ensures c.notified.Some? <==> st.completedRolls + 1 == diceCount
    ensures c.notified.Some? ==> c.notified.value == rendered && !c.state.isRolling
    ensures c.notified.None? ==> c.state.isRolling == st.isRolling
  {
    var count := st.completedRolls + 1;
    Completion(PanelState(st.values[index := value], if count == diceCount then false else st.isRolling, count),
               if count == diceCount then Some(rendered) else None)
  }

  /** The last die of a one-die panel: the parent is told the old face. */
  lemma StaleValuesReported()
    ensures DieRollCompleteAsWritten(PanelState([5], true, 0), [5], 1, 0, 3).notified == Some([5])
    ensures DieRollCompleteAsWritten(PanelState([5], true, 0), [5], 1, 0, 3).state.values == [3]
  {
  }

  /** handleDieRollComplete as intended: only die `index` changes, the finished
      count goes up by one, and when it reaches the dice count rolling stops and
      the parent is handed the final values. */
  function DieRollComplete(st: PanelState, diceCount: int, index: int, value: int): (c: Completion)
    requires 0 <= index < |st.values|
    ensures |c.state.values| == |st.values| && c.state.values[index] == value
    ensures forall i :: 0 <= i < |st.values| && i != index ==> c.state.values[i] == st.values[i]
    ensures c.state.completedRolls == st.completedRolls + 1
    ensures c.notified.Some? <==> st.completedRolls + 1 == diceCount
    ensures c.notified.Some? ==> c.notified.value == c.state.values && !c.state.isRolling
    ensures c.notified.None? ==> c.state.isRolling == st.isRolling
  {
    var c := DieRollCompleteAsWritten(st, st.values, diceCount, index, value);
    c.(notified := if c.notified.Some? then Some(c.state.values) else None)
  }

  /** Both versions agree on the panel and differ only in what the parent hears. */
  lemma CompletionVersionsAgree(st: PanelState, rendered: seq<int>, diceCount: int, index: int, value: int)
    requires 0 <= index < |st.values|
    ensures DieRollComplete(st, diceCount, index, value).state == DieRollCompleteAsWritten(st, rendered, diceCount, index, value).state
  {
  }

  /** After a roll starts, dice `0..|faces|-1` finish in position order, die
      `k` landing on `faces[k]`. Its own contract gives only the length; what
      the batch writes, counts and reports is stated by `CompleteAllFaces` and
      `FullRollReportsFaces`. */
  function CompleteAll(st: PanelState, diceCount: int, faces: seq<int>): (c: Completion)
    requires |faces| <= |st.values|
    ensures |c.state.values| == |st.values|
    decreases |faces|
  {
    if |faces| == 0 then Completion(st, None)
    else
      var c := CompleteAll(st, diceCount, faces[..|faces| - 1]);
      DieRollComplete(c.state, diceCount, |faces| - 1, faces[|faces| - 1])
  }

  /** The same batch through the handler as written, every completion
      belonging to the render in which the roll started. Its effect is stated
      by `BatchVersionsAgree` and `StaleBatchReported`. */
  function CompleteAllAsWritten(st: PanelState, rendered: seq<int>, diceCount: int, faces: seq<int>): (c: Completion)
    requires |faces| <= |st.values|
    ensures |c.state.values| == |st.values|
    decreases |faces|
  {
    if |faces| == 0 then Completion(st, None)
    else
      var c := CompleteAllAsWritten(st, rendered, diceCount, faces[..|faces| - 1]);
      DieRollCompleteAsWritten(c.state, rendered, diceCount, |faces| - 1, faces[|faces| - 1])
  }

  /** Both handlers leave the same panel after any batch, and a completed
      batch through the handler as written reports the rendered values. */
  lemma {:induction false} BatchVersionsAgree(st: PanelState, rendered: seq<int>, diceCount: int, faces: seq<int>)
    requires |faces| <= |st.values|
    ensures CompleteAllAsWritten(st, rendered, diceCount, faces).state == CompleteAll(st, diceCount, faces).state
    ensures CompleteAllAsWritten(st, rendered, diceCount, faces).notified.Some? ==>
              CompleteAllAsWritten(st, rendered, diceCount, faces).notified == Some(rendered)
    decreases |faces|
  {
    if |faces| > 0 {
      BatchVersionsAgree(st, rendered, diceCount, faces[..|faces| - 1]);
    }
  }

  /** Two dice showing 5 and 5 finish as 3 and 4 in one batch: the panel shows
      3 and 4, the handler as written tells the parent 5 and 5, and the
      corrected one tells it 3 and 4. */
  lemma StaleBatchReported()
    ensures CompleteAllAsWritten(PanelState([5, 5], true, 0), [5, 5], 2, [3, 4]).state.values == [3, 4]
    ensures CompleteAllAsWritten(PanelState([5, 5], true, 0), [5, 5], 2, [3, 4]).notified == Some([5, 5])
    ensures CompleteAll(PanelState([5, 5], true, 0), 2, [3, 4]).notified == Some([3, 4])
  {
  }

  lemma {:induction false} CompleteAllFaces(st: PanelState, diceCount: int, faces: seq<int>)
    requires |faces| <= |st.values|
    ensures |CompleteAll(st, diceCount, faces).state.values| == |st.values|
    ensures CompleteAll(st, diceCount, faces).state.values[..|faces|] == faces
    ensures CompleteAll(st, diceCount, faces).state.values[|faces|..] == st.values[|faces|..]
    ensures CompleteAll(st, diceCount, faces).state.completedRolls == st.completedRolls + |faces|
    decreases |faces|
  {
    if |faces| > 0 {
      var init := faces[..|faces| - 1];
      CompleteAllFaces(st, diceCount, init);
      var mid := CompleteAll(st, diceCount, init).state;
      var last := CompleteAll(st, diceCount, faces).state;
      assert last.values == mid.values[|faces| - 1 := faces[|faces| - 1]];
      assert last.values[..|faces|] == mid.values[..|faces| - 1] + [faces[|faces| - 1]];
      assert mid.values[..|faces| - 1] == init;
    }
  }

  /** A full roll of a panel whose values match the count: the parent hears
      exactly the faces rolled, and rolling stops. */
  lemma FullRollReportsFaces(st: PanelState, faces: seq<int>)
    requires |faces| == |st.values| > 0 && st.completedRolls == 0
    ensures CompleteAll(st, |faces|, faces).notified == Some(faces)
    ensures !CompleteAll(st, |faces|, faces).state.isRolling
  {
    CompleteAllFaces(st, |faces|, faces);
    var c := CompleteAll(st, |faces|, faces);
    assert c.state.values == c.state.values[..|faces|];
  }

  /** A roll whose dice finish in the order `idx`, die `idx[k]` landing on
      `faces[idx[k]]`. Its effect is stated by `CompleteInOrderFaces` and
      `FinishAnyOrderReportsFaces`. */
  function CompleteInOrder(st: PanelState, diceCount: int, idx: seq<nat>, faces: seq<int>): (c: Completion)
    requires |faces| == |st.values|
    requires forall k :: 0 <= k < |idx| ==> idx[k] < |st.values|
    ensures |c.state.values| == |st.values|
    decreases |idx|
  {
    if |idx| == 0 then Completion(st, None)
    else
      var c := CompleteInOrder(st, diceCount, idx[..|idx| - 1], faces);
      var i := idx[|idx| - 1];
      DieRollComplete(c.state, diceCount, i, faces[i])
  }

  /** After the dice in `idx` finish, each of them shows its new face and every
      other die its old one; each completion is counted, and the parent is told
      the panel's values exactly when the count reaches the dice count. */
  lemma {:induction false} CompleteInOrderFaces(st: PanelState, diceCount: int, idx: seq<nat>, faces: seq<int>)
    requires |faces| == |st.values|
    requires forall k :: 0 <= k < |idx| ==> idx[k] < |st.values|
    ensures var c := CompleteInOrder(st, diceCount, idx, faces);
            && c.state.completedRolls == st.completedRolls + |idx|
            && (forall i :: 0 <= i < |st.values| ==> c.state.values[i] == if i in idx then faces[i] else st.values[i])
            && (c.notified.Some? <==> |idx| > 0 && st.completedRolls + |idx| == diceCount)
            && (c.notified.Some? ==> c.notified.value == c.state.values && !c.state.isRolling)
    decreases |idx|
  {
    if |idx| > 0 {
      var init := idx[..|idx| - 1];
      CompleteInOrderFaces(st, diceCount, init, faces);
      var mid := CompleteInOrder(st, diceCount, init, faces).state;
      var c := CompleteInOrder(st, diceCount, idx, faces);
      forall i | 0 <= i < |st.values|
        ensures c.state.values[i] == if i in idx then faces[i] else st.values[i]
      {
        assert i in idx <==> i in init || i == idx[|idx| - 1] by {
          assert idx == init + [idx[|idx| - 1]];
        }
      }
    }
  }

  /** Whatever order the dice finish in, once each die has finished exactly
      once the parent hears exactly the faces rolled and rolling stops. */
  lemma FinishAnyOrderReportsFaces(st: PanelState, idx: seq<nat>, faces: seq<int>)
    requires |faces| == |st.values| > 0 && st.completedRolls == 0
    requires multiset(idx) == multiset(Positions(|faces|))
    ensures forall k :: 0 <= k < |idx| ==> idx[k] < |st.values|
    ensures CompleteInOrder(st, |faces|, idx, faces).notified == Some(faces)
    ensures !CompleteInOrder(st, |faces|, idx, faces).state.isRolling
  {
    var n := |faces|;
    PositionsBelow(idx, n);
    assert |idx| == |multiset(idx)| == |multiset(Positions(n))| == n;
    CompleteInOrderFaces(st, n, idx, faces);
    var c := CompleteInOrder(st, n, idx, faces);
    forall i | 0 <= i < n
      ensures i in idx
    {
      assert Positions(n)[i] == i;
      assert i in multiset(Positions(n));
    }
    assert c.state.values == faces;
  }

  /** The dice finishing in display order, the order their animations start
      in, also report exactly the faces rolled. */
  lemma DisplayOrderReportsFaces(st: PanelState, faces: seq<int>)
    requires |faces| == |st.values| > 0 && st.completedRolls == 0
    ensures CompleteInOrder(st, |faces|, SortedIndices(st.values, |faces|), faces).notified == Some(faces)
  {
    FinishAnyOrderReportsFaces(st, SortedIndices(st.values, |faces|), faces);
  }

  // ---- Display order ----

  /** Every entry of `s` is a position of `values`. */
  predicate InBounds(values: seq<int>, s: seq<nat>) {
    forall i :: 0 <= i < |s| ==> s[i] < |values|
  }

  /** Positions listed by non-decreasing die value. */
  predicate SortedBy(values: seq<int>, s: seq<nat>)
    requires InBounds(values, s)
  {
    forall i, j :: 0 <= i < j < |s| ==> values[s[i]] <= values[s[j]]
  }

  /** Equal values keep their positions' order, as a stable sort does. */
  predicate StableBy(values: seq<int>, s: seq<nat>)
    requires InBounds(values, s)
  {
    forall i, j :: 0 <= i < j < |s| && values[s[i]] == values[s[j]] ==> s[i] < s[j]
  }

  /** Insert position `x` after the leading positions whose value does not
      exceed its own. */
  function Insert(values: seq<int>, s: seq<nat>, x: nat): (r: seq<nat>)
    requires InBounds(values, s) && x < |values|
    ensures InBounds(values, r)
    ensures multiset(r) == multiset(s) + multiset{x}
    decreases |s|
  {
    if |s| == 0 then [x]
    else if values[x] < values[s[0]] then
      [x] + s
    else
      assert s == [s[0]] + s[1..];
      [s[0]] + Insert(values, s[1..], x)
  }

  /** The head of a sorted, stable list fits in front of anything the
      insertion into its tail produces. */
  lemma HeadFits(values: seq<int>, s: seq<nat>, x: nat)
    requires InBounds(values, s) && x < |values| && |s| > 0
    requires SortedBy(values, s) && StableBy(values, s)
    requires forall i :: 0 <= i < |s| ==> s[i] < x
    requires values[s[0]] <= values[x]
    ensures forall j :: 0 <= j < |Insert(values, s[1..], x)| ==>
              values[s[0]] <= values[Insert(values, s[1..], x)[j]] &&
              (values[s[0]] == values[Insert(values, s[1..], x)[j]] ==> s[0] < Insert(values, s[1..], x)[j])
  {
    var rest := Insert(values, s[1..], x);
    forall j | 0 <= j < |rest|
      ensures values[s[0]] <= values[rest[j]]
      ensures values[s[0]] == values[rest[j]] ==> s[0] < rest[j]
    {
      assert rest[j] in multiset(rest);
      if rest[j] != x {
        assert rest[j] in multiset(s[1..]);
        var k :| 0 <= k < |s[1..]| && s[1..][k] == rest[j];
        assert s[k + 1] == rest[j];
      }
    }
  }

  /** Insertion keeps the list sorted and stable. */
  lemma {:induction false} InsertSorted(values: seq<int>, s: seq<nat>, x: nat)
    requires InBounds(values, s) && x < |values|
    requires SortedBy(values, s) && StableBy(values, s)
    requires forall i :: 0 <= i < |s| ==> s[i] < x
    ensures SortedBy(values, Insert(values, s, x)) && StableBy(values, Insert(values, s, x))
    decreases |s|
  {
    var r := Insert(values, s, x);
    if |s| == 0 {
    } else if values[x] < values[s[0]] {
      forall i, j | 0 <= i < j < |r|
        ensures values[r[i]] <= values[r[j]]
        ensures values[r[i]] == values[r[j]] ==> r[i] < r[j]
      {
        if i > 0 {
          assert r[i] == s[i - 1] && r[j] == s[j - 1];
        } else {
          assert r[j] == s[j - 1];
        }
      }
    } else {
      var rest := Insert(values, s[1..], x);
      InsertSorted(values, s[1..], x);
      HeadFits(values, s, x);
      assert r == [s[0]] + rest;
      forall i, j | 0 <= i < j < |r|
        ensures values[r[i]] <= values[r[j]]
        ensures values[r[i]] == values[r[j]] ==> r[i] < r[j]
      {
        assert r[j] == rest[j - 1];
        if i > 0 {
          assert r[i] == rest[i - 1];
        }
      }
    }
  }

  /** The positions `0..n-1`. */
  function Positions(n: nat): (r: seq<nat>)
    ensures |r| == n && forall i :: 0 <= i < n ==> r[i] == i
  {
    seq(n, i requires 0 <= i => i)
  }

  /** A rearrangement of the positions `0..n-1` lists only positions below `n`. */
  lemma PositionsBelow(s: seq<nat>, n: nat)
    requires multiset(s) == multiset(Positions(n))
    ensures forall i :: 0 <= i < |s| ==> s[i] < n
  {
    forall i | 0 <= i < |s|
      ensures s[i] < n
    {
      assert s[i] in multiset(Positions(n));
    }
  }

  /** sortedIndices: the positions `0..n-1` ordered by die value, stably. */
  function SortedIndices(values: seq<int>, n: nat): (r: seq<nat>)
    requires n <= |values|
    ensures InBounds(values, r)
    ensures multiset(r) == multiset(Positions(n))
    ensures forall i :: 0 <= i < |r| ==> r[i] < n
    ensures SortedBy(values, r) && StableBy(values, r)
    decreases n
  {
    if n == 0 then []
    else
      var last: nat := n - 1;
      var prev := SortedIndices(values, last);
      var r := Insert(values, prev, last);
      assert Positions(n) == Positions(last) + [last];
      assert multiset(r) == multiset(Positions(n));
      PositionsBelow(r, n);
      InsertSorted(values, prev, last);
      r
  }

  /** Each position appears exactly once in the display order. */
  lemma SortedIndicesPermutation(values: seq<int>, n: nat, p: nat)
    requires n <= |values| && p < n
    ensures multiset(SortedIndices(values, n))[p] == 1
    ensures |SortedIndices(values, n)| == n
  {
    var r := SortedIndices(values, n);
    PositionsOnce(n, p);
    assert |r| == |multiset(r)| == |multiset(Positions(n))| == n;
  }

  lemma {:induction false} PositionsOnce(n: nat, p: nat)
    requires p < n
    ensures multiset(Positions(n))[p] == 1
  {
    assert Positions(n) == Positions(n - 1) + [n - 1];
    if p < n - 1 {
      PositionsOnce(n - 1, p);
    } else {
      assert p !in Positions(n - 1);
    }
  }

  // ---- Face summary ----

  /** The dice showing a face from 1 to 6. */
  function FaceDice(values: seq<int>): (n: nat)
    ensures n <= |values|
  {
    if |values| == 0 then 0 else (if IsFace(values[0]) then 1 else 0) + FaceDice(values[1..])
  }

  /** The summary row: the count of each face 1..6; a face is shown exactly
      when some die shows it. */
  function Summary(values: seq<int>): (counts: seq<nat>)
    ensures |counts| == 6
    ensures forall f :: 1 <= f <= 6 ==> counts[f - 1] == Occurrences(values, f)
    ensures forall f :: 1 <= f <= 6 ==> (counts[f - 1] > 0 <==> f in values)
  {
    seq(6, i requires 0 <= i < 6 => Occurrences(values, i + 1))
  }

  function Total(counts: seq<nat>): nat {
    if |counts| == 0 then 0 else counts[0] + Total(counts[1..])
  }

  /** The summary's counts add up to the dice showing a face. */
  lemma {:induction false} SummaryTotal(values: seq<int>)
    ensures Total(Summary(values)) == FaceDice(values)
  {
    var c := Summary(values);
    assert Total(c[6..]) == 0;
    assert Total(c[5..]) == c[5] by { assert c[5..][1..] == c[6..]; }
    assert Total(c[4..]) == c[4] + c[5] by { assert c[4..][1..] == c[5..]; }
    assert Total(c[3..]) == c[3] + c[4] + c[5] by { assert c[3..][1..] == c[4..]; }
    assert Total(c[2..]) == c[2] + c[3] + c[4] + c[5] by { assert c[2..][1..] == c[3..]; }
    assert Total(c[1..]) == c[1] + c[2] + c[3] + c[4] + c[5] by { assert c[1..][1..] == c[2..]; }
    SixFaces(values);
  }

  lemma {:induction false} SixFaces(values: seq<int>)
    ensures Occurrences(values, 1) + Occurrences(values, 2) + Occurrences(values, 3)
            + Occurrences(values, 4) + Occurrences(values, 5) + Occurrences(values, 6) == FaceDice(values)
  {
    if |values| > 0 {
      SixFaces(values[1..]);
    }
  }
}

=== FILE: game_types.dfy ===
/** The game document: players, wager, round state, lobby record and settings,
    as read from and written back to the `games` collection. */
module GameTypes {
  import opened Wrappers

  /** Players are keyed by their e-mail address. */
  type PlayerId = string

  datatype Status = Alive | Ghost | Zombie | Dead | Disconnected

  /** One seat at the table. The record's `id` and `email` fields always equal the
      key it is stored under and `joinedAt` is a server timestamp, so they are not kept. */
  datatype Player = Player(
    name: string,
    nickname: string,
    diceCount: int,
    currentDice: seq<int>,
    calzaCount: int,
    status: Status,
    isReady: bool,
    isConnected: bool)

  /** "At least `count` dice show `value`", claimed by `playerId`. */
  datatype Wager = Wager(playerId: PlayerId, count: int, value: int)

  /** The round phase; `AwaitingPlayers` is the phase the program calls 'waiting'. */
  datatype Phase = AwaitingPlayers | Rolling | Wagering | Revealing

  datatype Direction = Up | Down

  /** The in-game state. `order` lists the keys of the players object in insertion
      order, which is the order `Object.keys` reports and so the turn order. */
  datatype GameState = GameState(
    order: seq<PlayerId>,
    players: map<PlayerId, Player>,
    currentPlayerId: Option<PlayerId>,
    currentRound: int,
    phase: Phase,
    isPalifico: bool,
    currentWager: Option<Wager>,
    direction: Direction,
    currentRoundDice: map<PlayerId, seq<int>>)

  datatype GameStatus = Waiting | Active | Completed

  datatype Settings = Settings(
    startingDice: int,
    sevenDiceWins: bool,
    sevenCalzasWins: bool,
    palificoRules: bool,
    ghostMode: bool)

  /** The lobby record; `members` is the document's `players` array of e-mails. */
  datatype Game = Game(
    code: string,
    host: string,
    hostEmail: string,
    status: GameStatus,
    maxPlayers: int,
    playerCount: int,
    members: seq<PlayerId>,
    winner: Option<PlayerId>,
    gameState: Option<GameState>,
    settings: Settings)

  /** Why makeBid refuses a bid; one constructor per message it throws. */
  datatype BidError = ChangedBoth | MustIncreaseCount | MustIncreaseValue | NotHigher

  /** The errors the game actions throw (before anything is written). */
  datatype GameError =
    | GameNotFound
    | GameInProgress
    | GameFull
    | NotStarted
    | NotYourTurn
    | InvalidBid(reason: BidError)
    | NoWager
    | OwnBid
    | PlayerMissing

  predicate NoDup<T(==)>(s: seq<T>) {
    forall i, j :: 0 <= i < j < |s| ==> s[i] != s[j]
  }

  /** A JavaScript object's key list: duplicate-free and exactly its keys. */
  predicate Valid(gs: GameState) {
    && NoDup(gs.order)
    && (forall i :: 0 <= i < |gs.order| ==> gs.order[i] in gs.players)
    && (forall id :: id in gs.players ==> id in gs.order)
  }

  predicate GameValid(g: Game) {
    g.gameState.Some? ==> Valid(g.gameState.value)
  }

  /** A player's record with the dice left out: what a re-roll does not touch. */
  function Standing(p: Player): Player {
    p.(currentDice := [])
  }

  predicate IsAlive(p: Player) {
    p.status == Alive
  }

  /** Alive and connected: the players who take turns bidding. */
  predicate IsActive(p: Player) {
    p.status == Alive && p.isConnected
  }

  /** `ids.filter(id => keep(players[id]))`, skipping ids with no record. */
  function Select(ids: seq<PlayerId>, players: map<PlayerId, Player>, keep: Player -> bool): (r: seq<PlayerId>)
    ensures forall id :: id in r <==> id in ids && id in players && keep(players[id])
    ensures NoDup(ids) ==> NoDup(r)
    ensures |r| <= |ids|
  {
    if |ids| == 0 then []
    else
      var rest := Select(ids[1..], players, keep);
      if ids[0] in players && keep(players[ids[0]]) then [ids[0]] + rest else rest
  }

  /** The first id `Select` returns is the first id of `ids` that it keeps. */
  lemma {:induction false} SelectFirst(ids: seq<PlayerId>, players: map<PlayerId, Player>, keep: Player -> bool)
    requires |Select(ids, players, keep)| > 0
    ensures exists k :: 0 <= k < |ids| && ids[k] == Select(ids, players, keep)[0]
                        && forall j :: 0 <= j < k ==> !(ids[j] in players && keep(players[ids[j]]))
  {
    if ids[0] in players && keep(players[ids[0]]) {
      assert ids[0] == Select(ids, players, keep)[0];
    } else {
      SelectFirst(ids[1..], players, keep);
      var k :| 0 <= k < |ids[1..]| && ids[1..][k] == Select(ids[1..], players, keep)[0]
               && forall j :: 0 <= j < k ==> !(ids[1..][j] in players && keep(players[ids[1..][j]]));
      assert ids[k + 1] == Select(ids, players, keep)[0];
      forall j | 0 <= j < k + 1
        ensures !(ids[j] in players && keep(players[ids[j]]))
      {
        if j > 0 {
          assert ids[j] == ids[1..][j - 1];
        }
      }
    }
  }

  /** A duplicate-free list has length one exactly when it holds a single value. */
  lemma SingletonIff<T>(s: seq<T>)
    requires NoDup(s)
    ensures |s| == 1 <==> exists x :: x in s && forall y :: y in s ==> y == x
  {
    if |s| == 1 {
      assert s[0] in s;
    } else if |s| >= 2 {
      assert s[0] != s[1];
      forall x | x in s
        ensures exists y :: y in s && y != x
      {
        if x == s[0] {
          assert s[1] in s;
        } else {
          assert s[0] in s;
        }
      }
    }
  }

  /** Exactly one listed player is kept exactly when the filtered list has length one. */
  lemma SelectSingle(ids: seq<PlayerId>, players: map<PlayerId, Player>, keep: Player -> bool)
    requires NoDup(ids)
    ensures |Select(ids, players, keep)| == 1 <==>
              exists id :: id in ids && id in players && keep(players[id])
                           && forall o :: o in ids && o in players && keep(players[o]) ==> o == id
  {
    SingletonIff(Select(ids, players, keep));
  }

  /** The ids of the alive players, in turn order. */
  function AliveIds(gs: GameState): seq<PlayerId> {
    Select(gs.order, gs.players, IsAlive)
  }

  /** `id` is the first alive player in key order. */
  predicate FirstAlive(gs: GameState, id: PlayerId) {
    exists k :: 0 <= k < |gs.order| && gs.order[k] == id && id in gs.players && IsAlive(gs.players[id])
                && forall j :: 0 <= j < k ==> !(gs.order[j] in gs.players && IsAlive(gs.players[gs.order[j]]))
  }

  /** The ids of the alive and connected players, in turn order. */
  function ActiveIds(gs: GameState): seq<PlayerId> {
    Select(gs.order, gs.players, IsActive)
  }

  /** The number of dice held by the players listed in `ids`. */
  function SumDice(ids: seq<PlayerId>, players: map<PlayerId, Player>): int {
    if |ids| == 0 then 0
    else (if ids[0] in players then players[ids[0]].diceCount else 0) + SumDice(ids[1..], players)
  }

  function TotalDice(gs: GameState): int {
    SumDice(gs.order, gs.players)
  }

  /** Replacing one record changes the dice total by the change in its dice count. */
  lemma {:induction false} SumDiceUpdate(ids: seq<PlayerId>, players: map<PlayerId, Player>, id: PlayerId, p: Player)
    requires NoDup(ids) && id in players && id in ids
    ensures SumDice(ids, players[id := p]) == SumDice(ids, players) + p.diceCount - players[id].diceCount
  {
    if ids[0] == id {
      assert id !in ids[1..];
      SumDiceUnchanged(ids[1..], players, players[id := p]);
    } else {
      assert NoDup(ids[1..]);
      SumDiceUpdate(ids[1..], players, id, p);
    }
  }

  /** The dice total depends only on the listed players' dice counts. */
  lemma {:induction false} SumDiceUnchanged(ids: seq<PlayerId>, a: map<PlayerId, Player>, b: map<PlayerId, Player>)
    requires forall i :: 0 <= i < |ids| ==> (ids[i] in a <==> ids[i] in b)
    requires forall i :: 0 <= i < |ids| && ids[i] in a ==> a[ids[i]].diceCount == b[ids[i]].diceCount
    ensures SumDice(ids, a) == SumDice(ids, b)
  {
    if |ids| > 0 {
      SumDiceUnchanged(ids[1..], a, b);
    }
  }
}

=== FILE: lobby.dfy ===
/** Creating, joining, configuring, leaving, rejoining and starting a game. */
module Lobby {
  import opened Wrappers
  import opened GameTypes
  import opened Dice
  import opened Dealing

  const DefaultMaxPlayers := 9
  const DefaultSettings := Settings(5, true, true, true, true)

  /** createGame: a waiting room with no players and the default settings. The
      room code is an input; generating it needs the database. */
  function CreateGame(code: string, hostEmail: string, hostName: string): (g: Game)
    ensures g.status == Waiting && g.code == code && g.host == hostName && g.hostEmail == hostEmail
    ensures g.members == [] && g.playerCount == 0 && g.maxPlayers == DefaultMaxPlayers
    ensures g.gameState.None? && g.winner.None? && g.settings == DefaultSettings
  {
    Game(code, hostName, hostEmail, Waiting, DefaultMaxPlayers, 0, [], None, None, DefaultSettings)
  }

  /** `settings?.startingDice || 5`: zero is falsy, so it falls back to five. */
  function StartingDice(s: Settings): (n: int)
    ensures n != 0
    ensures s.startingDice != 0 ==> n == s.startingDice
    ensures s.startingDice == 0 ==> n == 5
  {
    if s.startingDice == 0 then 5 else s.startingDice
  }

  /** `nickname || playerName`: an absent or empty nickname falls back to the name. */
  function Nickname(name: string, nickname: Option<string>): (r: string)
    ensures nickname.Some? && nickname.value != "" ==> r == nickname.value
    ensures nickname.None? || nickname.value == "" ==> r == name
  {
    match nickname
    case Some(n) => if n != "" then n else name
    case None => name
  }

  /** The record joinGame stores for a newcomer. */
  function NewSeat(name: string, nickname: Option<string>, s: Settings): (p: Player)
    ensures p.status == Alive && p.isConnected && !p.isReady
    ensures p.currentDice == [] && p.calzaCount == 0 && p.diceCount == StartingDice(s)
    ensures p.name == name && p.nickname == Nickname(name, nickname)
  {
    Player(name, Nickname(name, nickname), StartingDice(s), [], 0, Alive, false, true)
  }

  /** The game state joinGame creates when the first player arrives. */
  const EmptyState := GameState([], map[], None, 0, AwaitingPlayers, false, None, Up, map[])

  datatype JoinOutcome = JoinOutcome(joined: bool, isActive: bool)

  /** Adding a player appends its id to the key order and assigning to an
      existing id keeps its place, as for a JavaScript object built in
      insertion order; the model takes the stored players map to come back in
      that order. */
  function Seat(gs: GameState, id: PlayerId, p: Player): (r: GameState)
    requires Valid(gs)
    ensures Valid(r)
    ensures r.players == gs.players[id := p]
    ensures r.order == if id in gs.players then gs.order else gs.order + [id]
    ensures r == gs.(order := r.order, players := r.players)
  {
    if id in gs.players then gs.(players := gs.players[id := p])
    else gs.(order := gs.order + [id], players := gs.players[id := p])
  }

  /** joinGame on the game its room code found (the query only finds waiting and
      active games). A member rejoining an active game is reconnected. */
  function JoinGame(g: Game, email: PlayerId, name: string, nickname: Option<string>)
    : (r: Result<(Game, JoinOutcome), GameError>)
    requires GameValid(g)
    ensures r.Ok? ==> GameValid(r.value.0) && r.value.1.joined
    ensures g.status == Completed ==> r == Err(GameNotFound)
    ensures g.status != Completed && email in g.members ==>
              && r.Ok?
              && r.value.1.isActive == (g.status == Active)
              && r.value.0 == (if g.status == Active && g.gameState.Some? && email in g.gameState.value.players
                               then ReconnectToGame(g, email) else g)
    ensures g.status == Active && email !in g.members ==> r == Err(GameInProgress)
    ensures g.status == Waiting && email !in g.members ==> (r.Ok? <==> g.playerCount < g.maxPlayers)
    ensures g.status == Waiting && email !in g.members && r.Ok? ==>
              var ng := r.value.0;
              var gs0 := if g.gameState.Some? then g.gameState.value else EmptyState;
              && r.value.1 == JoinOutcome(true, false)
              && ng == g.(members := g.members + [email], playerCount := g.playerCount + 1, gameState := ng.gameState)
              && ng.gameState.Some?
              && ng.gameState.value.players == gs0.players[email := NewSeat(name, nickname, g.settings)]
              && ng.gameState.value.order == (if email in gs0.players then gs0.order else gs0.order + [email])
              && ng.gameState.value == gs0.(order := ng.gameState.value.order, players := ng.gameState.value.players)
  {
    if g.status == Completed then Err(GameNotFound)
    else if email in g.members then
      if g.status == Active && g.gameState.Some? && email in g.gameState.value.players then
        Ok((ReconnectToGame(g, email), JoinOutcome(true, true)))
      else Ok((g, JoinOutcome(true, g.status == Active)))
    else if g.status == Active then Err(GameInProgress)
    else if g.playerCount >= g.maxPlayers then Err(GameFull)
    else
      var gs := if g.gameState.Some? then g.gameState.value else EmptyState;
      var ns := Seat(gs, email, NewSeat(name, nickname, g.settings));
      Ok((g.(members := g.members + [email], playerCount := g.playerCount + 1, gameState := Some(ns)),
          JoinOutcome(true, false)))
  }

  /** Anyone can join a freshly created game, and becomes its only player. */
  lemma JoinNewGame(code: string, hostEmail: string, hostName: string, email: PlayerId, name: string)
    ensures var r := JoinGame(CreateGame(code, hostEmail, hostName), email, name, None);
            && r.Ok?
            && r.value.0.members == [email]
            && r.value.0.gameState.Some?
            && r.value.0.gameState.value.order == [email]
            && r.value.0.gameState.value.players[email].diceCount == 5
  {
  }

  /** updateGameSettings: stores the settings and, when the starting dice change,
      gives every seated player that many dice. */
  function UpdateGameSettings(g: Game, s: Settings): (r: Game)
    requires GameValid(g)
    ensures GameValid(r)
    ensures r == g.(settings := s, gameState := r.gameState)
    ensures g.gameState.None? <==> r.gameState.None?
    ensures g.gameState.Some? ==>
              var gs := g.gameState.value;
              var ns := r.gameState.value;
              && ns == gs.(players := ns.players)
              && ns.players.Keys == gs.players.Keys
              && forall id :: id in gs.players ==>
                   ns.players[id] == gs.players[id].(diceCount := ns.players[id].diceCount)
                   && ns.players[id].diceCount ==
                      (if s.startingDice != g.settings.startingDice then s.startingDice else gs.players[id].diceCount)
  {
    match g.gameState
    case None => g.(settings := s)
    case Some(gs) =>
      if s.startingDice != g.settings.startingDice then
        var players := map id | id in gs.players :: gs.players[id].(diceCount := s.startingDice);
        g.(settings := s, gameState := Some(gs.(players := players)))
      else g.(settings := s)
  }

  /** updatePlayerReady: sets one seated player's ready flag. */
  function UpdatePlayerReady(g: Game, email: PlayerId, ready: bool): (r: Game)
    requires GameValid(g)
    ensures GameValid(r)
    ensures g.gameState.None? || email !in g.gameState.value.players ==> r == g
    ensures g.gameState.Some? && email in g.gameState.value.players ==>
              var gs := g.gameState.value;
              && r == g.(gameState := r.gameState)
              && r.gameState.Some?
              && var ns := r.gameState.value;
              && ns == gs.(players := ns.players)
              && ns.players.Keys == gs.players.Keys
              && ns.players[email].isReady == ready
              && ns.players[email] == gs.players[email].(isReady := ns.players[email].isReady)
              && forall id :: id in gs.players && id != email ==> ns.players[id] == gs.players[id]
  {
    match g.gameState
    case Some(gs) =>
      if email in gs.players then
        g.(gameState := Some(gs.(players := gs.players[email := gs.players[email].(isReady := ready)])))
      else g
    case None => g
  }

  /** leaveGame: the player is marked as not connected and, in an active game, an
      alive player becomes disconnected. */
  function LeaveGame(g: Game, email: PlayerId): (r: Game)
    requires GameValid(g)
    ensures GameValid(r)
    ensures g.gameState.None? || email !in g.gameState.value.players ==> r == g
    ensures g.gameState.Some? && email in g.gameState.value.players ==>
              r.gameState.Some? && email in r.gameState.value.players
    ensures g.gameState.Some? && email in g.gameState.value.players ==>
              var gs := g.gameState.value;
              var p := gs.players[email];
              var q := r.gameState.value.players[email];
              && r == g.(gameState := Some(gs.(players := gs.players[email := q])))
              && !q.isConnected
              && q.status == (if g.status == Active && p.status == Alive then Disconnected else p.status)
              && q == p.(isConnected := q.isConnected, status := q.status)
  {
    match g.gameState
    case Some(gs) =>
      if email in gs.players then
        var p := gs.players[email];
        var status := if g.status == Active && p.status == Alive then Disconnected else p.status;
        g.(gameState := Some(gs.(players := gs.players[email := p.(isConnected := false, status := status)])))
      else g
    case None => g
  }

  /** reconnectToGame: the player is marked as connected, and a disconnected
      player is alive again. Nothing else changes. */
  function ReconnectToGame(g: Game, email: PlayerId): (r: Game)
    ensures GameValid(g) ==> GameValid(r)
    ensures g.gameState.None? || email !in g.gameState.value.players ==> r == g
    ensures g.gameState.Some? && email in g.gameState.value.players ==>
              r.gameState.Some? && email in r.gameState.value.players
    ensures g.gameState.Some? && email in g.gameState.value.players ==>
              var gs := g.gameState.value;
              var p := gs.players[email];
              var q := r.gameState.value.players[email];
              && r == g.(gameState := Some(gs.(players := gs.players[email := q])))
              && q.isConnected
              && q.status == (if p.status == Disconnected then Alive else p.status)
              && q == p.(isConnected := q.isConnected, status := q.status)
  {
    match g.gameState
    case Some(gs) =>
      if email in gs.players then
        var p := gs.players[email];
        var status := if p.status == Disconnected then Alive else p.status;
        g.(gameState := Some(gs.(players := gs.players[email := p.(isConnected := true, status := status)])))
      else g
    case None => g
  }

  /** Reconnecting twice is the same as reconnecting once. */
  lemma ReconnectIdempotent(g: Game, email: PlayerId)
    ensures ReconnectToGame(ReconnectToGame(g, email), email) == ReconnectToGame(g, email)
  {
    var r := ReconnectToGame(g, email);
    if g.gameState.Some? && email in g.gameState.value.players {
      var rs := r.gameState.value;
      var q := rs.players[email];
      assert q.status != Disconnected;
      assert rs.players[email := q] == rs.players;
    }
  }

  /** In an active game, leaving and rejoining restores a player who was alive and
      connected. */
  lemma LeaveThenReconnect(g: Game, email: PlayerId)
    requires GameValid(g) && g.status == Active && g.gameState.Some?
    requires email in g.gameState.value.players
    requires g.gameState.value.players[email].status == Alive && g.gameState.value.players[email].isConnected
    ensures ReconnectToGame(LeaveGame(g, email), email) == g
  {
    var gs := g.gameState.value;
    var left := LeaveGame(g, email);
    var ls := left.gameState.value;
    assert ls.players[email := gs.players[email]] == gs.players;
  }

  /** The round startGame opens: alive players roll their dice and the first alive
      player in key order is to bid. */
  function OpenRound(gs: GameState, draws: Draws): (ns: GameState)
    requires Valid(gs)
    ensures Valid(ns)
    ensures ns == gs.(players := ns.players, currentRoundDice := ns.currentRoundDice, phase := Wagering,
                      currentRound := 1, currentPlayerId := ns.currentPlayerId)
    ensures ns.players.Keys == gs.players.Keys
    ensures forall id :: id in gs.players ==> Standing(ns.players[id]) == Standing(gs.players[id])
    ensures forall id :: id in gs.players && IsAlive(gs.players[id]) ==>
              |ns.players[id].currentDice| == (if gs.players[id].diceCount > 0 then gs.players[id].diceCount else 0)
    ensures FairDraws(draws) ==>
              forall id :: id in gs.players && IsAlive(gs.players[id]) ==> AllFaces(ns.players[id].currentDice)
    ensures forall id :: id in gs.players && !IsAlive(gs.players[id]) ==> ns.players[id] == gs.players[id]
    ensures forall id :: id in ns.currentRoundDice <==> id in gs.players && IsAlive(gs.players[id])
    ensures forall id :: id in ns.currentRoundDice ==> ns.currentRoundDice[id] == ns.players[id].currentDice
    ensures ns.currentPlayerId.Some? <==> exists id :: id in gs.players && IsAlive(gs.players[id])
    ensures ns.currentPlayerId.Some? ==> FirstAlive(gs, ns.currentPlayerId.value)
  {
    var alive := AliveIds(gs);
    var players := Deal(alive, gs.players, OpeningDeal, draws, 0);
    var roundDice := map id | id in players && IsAlive(players[id]) :: players[id].currentDice;
    var first := if |alive| > 0 then SelectFirst(gs.order, gs.players, IsAlive); Some(alive[0]) else None;
    gs.(players := players, currentRoundDice := roundDice, phase := Wagering,
        currentRound := 1, currentPlayerId := first)
  }

  /** startGame: opens the first round, if anyone has joined, and marks the game
      active. */
  function StartGame(g: Game, draws: Draws): (r: Game)
    requires GameValid(g)
    ensures GameValid(r)
    ensures r.status == Active
    ensures r == g.(status := Active, gameState := r.gameState)
    ensures g.gameState.None? ==> r.gameState.None?
    ensures g.gameState.Some? ==> r.gameState == Some(OpenRound(g.gameState.value, draws))
  {
    match g.gameState
    case None => g.(status := Active)
    case Some(gs) => g.(status := Active, gameState := Some(OpenRound(gs, draws)))
  }
}

=== FILE: resolution.dfy ===
/** Counting the dice that support a wager when dudo or calza is called. */
module Resolution {
  import opened GameTypes
  import opened Dice

  /** Whose dice are revealed: alive players and disconnected ones. */
  predicate IsCounted(p: Player) {
    p.status == Alive || p.status == Disconnected
  }

  /** A die supports a bid on `value` if it shows it, or if it is an ace, the bid is
      not on aces, and the round is not Palifico. */
  predicate Supports(die: int, value: int, isPalifico: bool) {
    die == value || (!isPalifico && die == 1 && value != 1)
  }

  function MatchCount(dice: seq<int>, value: int, isPalifico: bool): (n: nat)
    ensures n <= |dice|
  {
    if |dice| == 0 then 0
    else (if Supports(dice[0], value, isPalifico) then 1 else 0) + MatchCount(dice[1..], value, isPalifico)
  }

  /** `actualCount` of callDudo and callCalza: the supporting dice of every counted
      player, player by player in key order. */
  function ActualCount(ids: seq<PlayerId>, players: map<PlayerId, Player>, value: int, isPalifico: bool): nat {
    if |ids| == 0 then 0
    else
      var own := if ids[0] in players && IsCounted(players[ids[0]])
                 then MatchCount(players[ids[0]].currentDice, value, isPalifico) else 0;
      own + ActualCount(ids[1..], players, value, isPalifico)
  }

  /** All revealed dice, laid out player by player. */
  function TableDice(ids: seq<PlayerId>, players: map<PlayerId, Player>): seq<int> {
    if |ids| == 0 then []
    else
      (if ids[0] in players && IsCounted(players[ids[0]]) then players[ids[0]].currentDice else [])
      + TableDice(ids[1..], players)
  }

  lemma {:induction false} MatchCountAppend(a: seq<int>, b: seq<int>, value: int, isPalifico: bool)
    ensures MatchCount(a + b, value, isPalifico) == MatchCount(a, value, isPalifico) + MatchCount(b, value, isPalifico)
  {
    if |a| == 0 {
      assert a + b == b;
    } else {
      assert (a + b)[1..] == a[1..] + b;
      MatchCountAppend(a[1..], b, value, isPalifico);
    }
  }

  /** Supporting dice by face: in Palifico only the bid face counts; outside it a
      bid on a face other than aces also collects every ace. */
  lemma {:induction false} MatchCountByFace(dice: seq<int>, value: int, isPalifico: bool)
    ensures isPalifico || value == 1 ==> MatchCount(dice, value, isPalifico) == Occurrences(dice, value)
    ensures !isPalifico && value != 1 ==>
              MatchCount(dice, value, isPalifico) == Occurrences(dice, value) + Occurrences(dice, 1)
  {
    if |dice| > 0 {
      MatchCountByFace(dice[1..], value, isPalifico);
    }
  }

  /** The player-by-player count equals the count over the whole revealed table. */
  lemma {:induction false} ActualCountIsTableCount(ids: seq<PlayerId>, players: map<PlayerId, Player>, value: int, isPalifico: bool)
    ensures ActualCount(ids, players, value, isPalifico) == MatchCount(TableDice(ids, players), value, isPalifico)
  {
    if |ids| > 0 {
      ActualCountIsTableCount(ids[1..], players, value, isPalifico);
      var own := if ids[0] in players && IsCounted(players[ids[0]]) then players[ids[0]].currentDice else [];
      MatchCountAppend(own, TableDice(ids[1..], players), value, isPalifico);
    }
  }

  /** `actualCount` never exceeds the revealed dice, counts only the bid face in
      Palifico, and adds the aces to the bid face otherwise. */
  lemma ActualCountByFace(ids: seq<PlayerId>, players: map<PlayerId, Player>, value: int, isPalifico: bool)
    ensures ActualCount(ids, players, value, isPalifico) <= |TableDice(ids, players)|
    ensures isPalifico || value == 1 ==>
              ActualCount(ids, players, value, isPalifico) == Occurrences(TableDice(ids, players), value)
    ensures !isPalifico && value != 1 ==>
              ActualCount(ids, players, value, isPalifico)
              == Occurrences(TableDice(ids, players), value) + Occurrences(TableDice(ids, players), 1)
  {
    ActualCountIsTableCount(ids, players, value, isPalifico);
    MatchCountByFace(TableDice(ids, players), value, isPalifico);
  }
}

=== FILE: rounds.dfy ===
/** The in-round actions: bidding, dudo, calza, and the start of the next round. */
module Rounds {
  import opened Wrappers
  import opened GameTypes
  import opened Dice
  import opened Turns
  import opened Bidding
  import opened Resolution
  import opened Dealing

  /** The dice a successful calza can bring a player up to. */
  const CalzaCap := 5

  // ---------------------------------------------------------------- bidding

  /** makeBid: only the player whose turn it is may bid, the bid must pass
      `CheckBid`, and then the bid becomes the wager and the turn moves on among
      the alive and connected players in the round's direction. */
  function MakeBid(g: Game, bidder: PlayerId, count: int, value: int): (r: Result<Game, GameError>)
    requires GameValid(g)
    ensures r.Ok? ==> GameValid(r.value)
    ensures g.gameState.None? ==> r == Err(NotStarted)
    ensures g.gameState.Some? && g.gameState.value.currentPlayerId != Some(bidder) ==> r == Err(NotYourTurn)
    ensures g.gameState.Some? && g.gameState.value.currentPlayerId == Some(bidder) ==>
              var gs := g.gameState.value;
              var check := CheckBid(gs.currentWager, gs.isPalifico, count, value);
              && (check.Some? ==> r == Err(InvalidBid(check.value)))
              && (check.None? ==> r.Ok?)
    ensures r.Ok? ==> r.value.gameState.Some?
    ensures r.Ok? ==>
              var gs := g.gameState.value;
              var ns := r.value.gameState.value;
              && r.value == g.(gameState := Some(ns))
              && ns == gs.(currentWager := ns.currentWager, currentPlayerId := ns.currentPlayerId)
              && ns.currentWager == Some(Wager(bidder, count, value))
              && (ns.currentPlayerId.Some? ==> ns.currentPlayerId.value in ActiveIds(gs))
              && (ns.currentPlayerId.None? <==> |ActiveIds(gs)| == 0)
  {
    match g.gameState
    case None => Err(NotStarted)
    case Some(gs) =>
      if gs.currentPlayerId != Some(bidder) then Err(NotYourTurn)
      else
        var check := CheckBid(gs.currentWager, gs.isPalifico, count, value);
        if check.Some? then Err(InvalidBid(check.value))
        else
          var next := NextPlayer(ActiveIds(gs), bidder, gs.direction);
          Ok(g.(gameState := Some(gs.(currentWager := Some(Wager(bidder, count, value)), currentPlayerId := next))))
  }

  /** An accepted bid from an alive, connected bidder hands the turn to the
      neighbour in the round's direction, wrapping around. */
  lemma BidPassesTurn(g: Game, bidder: PlayerId, count: int, value: int)
    requires GameValid(g) && g.gameState.Some? && g.gameState.value.currentPlayerId == Some(bidder)
    requires CheckBid(g.gameState.value.currentWager, g.gameState.value.isPalifico, count, value).None?
    requires bidder in ActiveIds(g.gameState.value)
    ensures MakeBid(g, bidder, count, value).Ok?
    ensures var gs := g.gameState.value;
            var active := ActiveIds(gs);
            var i := IndexOf(active, bidder);
            var ns := MakeBid(g, bidder, count, value).value.gameState.value;
            && (gs.direction == Up ==> ns.currentPlayerId == Some(active[if i + 1 < |active| then i + 1 else 0]))
            && (gs.direction == Down ==> ns.currentPlayerId == Some(active[if i > 0 then i - 1 else |active| - 1]))
  {
    var gs := g.gameState.value;
    NextFromSeat(ActiveIds(gs), IndexOf(ActiveIds(gs), bidder));
  }

  // ---------------------------------------------------------------- new round

  predicate HasOneDie(p: Player) {
    p.diceCount == 1
  }

  /** `id` is the only alive player. */
  predicate LastStanding(gs: GameState, id: PlayerId) {
    && id in gs.players && IsAlive(gs.players[id])
    && forall o :: o in gs.players && IsAlive(gs.players[o]) ==> o == id
  }

  /** `id` is the only alive player down to a single die. */
  predicate LonePalifico(gs: GameState, id: PlayerId) {
    && id in gs.players && IsAlive(gs.players[id]) && HasOneDie(gs.players[id])
    && forall o :: o in gs.players && IsAlive(gs.players[o]) && HasOneDie(gs.players[o]) ==> o == id
  }

  lemma LastStandingIff(gs: GameState)
    requires Valid(gs)
    ensures |AliveIds(gs)| == 1 <==> exists id :: LastStanding(gs, id)
    ensures |AliveIds(gs)| == 1 ==> LastStanding(gs, AliveIds(gs)[0])
  {
    SelectSingle(gs.order, gs.players, IsAlive);
    if |AliveIds(gs)| == 1 {
      var id :| id in gs.order && id in gs.players && IsAlive(gs.players[id])
                && forall o :: o in gs.order && o in gs.players && IsAlive(gs.players[o]) ==> o == id;
      assert LastStanding(gs, id);
      assert AliveIds(gs)[0] in AliveIds(gs);
    }
    if exists id :: LastStanding(gs, id) {
      var id :| LastStanding(gs, id);
      assert id in gs.order;
    }
  }

  /** isPalifico of the new round: exactly one alive player has exactly one die. */
  function PalificoRound(gs: GameState): (b: bool)
    requires Valid(gs)
    ensures b <==> exists id :: LonePalifico(gs, id)
  {
    var lone := Select(AliveIds(gs), gs.players, HasOneDie);
    SelectSingle(AliveIds(gs), gs.players, HasOneDie);
    if |lone| == 1 then
      var id :| id in AliveIds(gs) && id in gs.players && HasOneDie(gs.players[id])
                && forall o :: o in AliveIds(gs) && o in gs.players && HasOneDie(gs.players[o]) ==> o == id;
      assert LonePalifico(gs, id);
      true
    else
      assert forall id :: LonePalifico(gs, id) ==> id in AliveIds(gs);
      false
  }

  /** Who opens the new round: the given player if still alive, else the first
      alive player in key order, else nobody. */
  function RoundStarter(gs: GameState, starter: PlayerId): (r: Option<PlayerId>)
    requires Valid(gs)
    ensures starter in gs.players && IsAlive(gs.players[starter]) ==> r == Some(starter)
    ensures !(starter in gs.players && IsAlive(gs.players[starter])) ==>
              && (r.Some? <==> exists id :: id in gs.players && IsAlive(gs.players[id]))
              && (r.Some? ==> FirstAlive(gs, r.value))
  {
    var alive := AliveIds(gs);
    if starter in alive then Some(starter)
    else if |alive| > 0 then SelectFirst(gs.order, gs.players, IsAlive); Some(alive[0])
    else
      assert forall id :: id in gs.players && IsAlive(gs.players[id]) ==> id in alive;
      None
  }

  /** The round startNewRound opens when the game goes on. */
  function NextRound(gs: GameState, starter: PlayerId, draws: Draws): (ns: GameState)
    requires Valid(gs)
    ensures Valid(ns)
    ensures ns == gs.(players := ns.players, currentRoundDice := ns.currentRoundDice, phase := Wagering,
                      currentRound := gs.currentRound + 1, currentWager := None,
                      isPalifico := PalificoRound(gs), currentPlayerId := RoundStarter(gs, starter))
    ensures ns.players.Keys == gs.players.Keys
    ensures forall id :: id in gs.players ==> Standing(ns.players[id]) == Standing(gs.players[id])
    ensures forall id :: id in gs.players ==>
              |ns.players[id].currentDice| ==
              (if IsAlive(gs.players[id]) && gs.players[id].diceCount > 0 then gs.players[id].diceCount else 0)
    ensures FairDraws(draws) ==> forall id :: id in gs.players ==> AllFaces(ns.players[id].currentDice)
    ensures forall id :: id in ns.currentRoundDice <==>
              id in gs.players && IsAlive(gs.players[id]) && gs.players[id].diceCount > 0
    ensures forall id :: id in ns.currentRoundDice ==> ns.currentRoundDice[id] == ns.players[id].currentDice
  {
    var players := Deal(gs.order, gs.players, RoundDeal, draws, 0);
    var roundDice := map id | id in players && IsAlive(players[id]) && players[id].diceCount > 0 :: players[id].currentDice;
    gs.(players := players, currentRoundDice := roundDice, phase := Wagering, currentRound := gs.currentRound + 1,
        currentWager := None, isPalifico := PalificoRound(gs), currentPlayerId := RoundStarter(gs, starter))
  }

  /** startNewRound: with a single alive player the game is over and that player
      has won; otherwise the next round begins. */
  function StartNewRound(g: Game, starter: PlayerId, draws: Draws): (r: Game)
    requires GameValid(g)
    ensures GameValid(r)
    ensures g.gameState.None? ==> r == g
    ensures g.gameState.Some? ==>
              var gs := g.gameState.value;
              && ((exists id :: LastStanding(gs, id)) ==>
                    r == g.(status := Completed, winner := r.winner) && r.winner.Some? && LastStanding(gs, r.winner.value))
              && (!(exists id :: LastStanding(gs, id)) ==> r == g.(gameState := Some(NextRound(gs, starter, draws))))
  {
    match g.gameState
    case None => g
    case Some(gs) =>
      var alive := AliveIds(gs);
      LastStandingIff(gs);
      if |alive| == 1 then g.(status := Completed, winner := Some(alive[0]))
      else g.(gameState := Some(NextRound(gs, starter, draws)))
  }

  /** A new round changes nobody's dice count, status or calza count. */
  lemma StartNewRoundKeepsStanding(g: Game, starter: PlayerId, draws: Draws)
    requires GameValid(g) && g.gameState.Some?
    ensures var r := StartNewRound(g, starter, draws);
            && r.gameState.Some?
            && r.gameState.value.order == g.gameState.value.order
            && r.gameState.value.players.Keys == g.gameState.value.players.Keys
            && forall id :: id in g.gameState.value.players ==>
                 Standing(r.gameState.value.players[id]) == Standing(g.gameState.value.players[id])
  {
  }

  // ---------------------------------------------------------------- dudo and calza

  /** Losing a die: at zero dice the player is dead. */
  function LoseDie(p: Player): (q: Player)
    ensures q.diceCount == (if p.diceCount > 1 then p.diceCount - 1 else 0)
    ensures q.status == (if q.diceCount == 0 then Dead else p.status)
    ensures q == p.(diceCount := q.diceCount, status := q.status)
  {
    var d := if p.diceCount - 1 > 0 then p.diceCount - 1 else 0;
    p.(diceCount := d, status := if d == 0 then Dead else p.status)
  }

  /** A successful calza: one more die, but never above `CalzaCap`, and one more
      calza to the player's name. */
  function WinCalza(p: Player): (q: Player)
    ensures q.diceCount == (if p.diceCount + 1 < CalzaCap then p.diceCount + 1 else CalzaCap)
    ensures q.calzaCount == p.calzaCount + 1
    ensures q == p.(diceCount := q.diceCount, calzaCount := q.calzaCount)
  {
    p.(diceCount := if CalzaCap < p.diceCount + 1 then CalzaCap else p.diceCount + 1, calzaCount := p.calzaCount + 1)
  }

  /** The dice on the table that support the current wager. */
  function Supporting(gs: GameState): nat
    requires gs.currentWager.Some?
  {
    ActualCount(gs.order, gs.players, gs.currentWager.value.value, gs.isPalifico)
  }

  /** Who loses a dudo: the challenger if the wager stands, else the bidder. */
  function DudoLoser(gs: GameState, caller: PlayerId): PlayerId
    requires gs.currentWager.Some?
  {
    if Supporting(gs) >= gs.currentWager.value.count then caller else gs.currentWager.value.playerId
  }

  /** callDudo: the player to act challenges the wager; the loser gives up a die and
      the next round starts with them. */
  function CallDudo(g: Game, caller: PlayerId, draws: Draws): (r: Result<Game, GameError>)
    requires GameValid(g)
    ensures r.Ok? ==> GameValid(r.value)
    ensures g.gameState.None? || g.gameState.value.currentWager.None? ==> r == Err(NoWager)
    ensures g.gameState.Some? && g.gameState.value.currentWager.Some? ==>
              var gs := g.gameState.value;
              && (gs.currentPlayerId != Some(caller) ==> r == Err(NotYourTurn))
              && (gs.currentPlayerId == Some(caller) ==>
                    (r.Ok? <==> DudoLoser(gs, caller) in gs.players) && (r.Err? ==> r == Err(PlayerMissing)))
    ensures r.Ok? ==>
              var gs := g.gameState.value;
              var loser := DudoLoser(gs, caller);
              r.value == StartNewRound(g.(gameState := Some(gs.(players := gs.players[loser := LoseDie(gs.players[loser])]))),
                                       loser, draws)
  {
    match g.gameState
    case None => Err(NoWager)
    case Some(gs) =>
      if gs.currentWager.None? then Err(NoWager)
      else if gs.currentPlayerId != Some(caller) then Err(NotYourTurn)
      else
        var loser := DudoLoser(gs, caller);
        if loser !in gs.players then Err(PlayerMissing)
        else
          var after := gs.(players := gs.players[loser := LoseDie(gs.players[loser])]);
          Ok(StartNewRound(g.(gameState := Some(after)), loser, draws))
  }

  /** Replacing one player's record and starting the next round: that player's
      standing is the new record's, everyone else's is unchanged, and the dice on
      the table change by the difference. */
  lemma PenaltyThenRound(g: Game, id: PlayerId, q: Player, starter: PlayerId, draws: Draws)
    requires GameValid(g) && g.gameState.Some? && id in g.gameState.value.players
    ensures var gs := g.gameState.value;
            var r := StartNewRound(g.(gameState := Some(gs.(players := gs.players[id := q]))), starter, draws);
            && r.gameState.Some?
            && id in r.gameState.value.players
            && Standing(r.gameState.value.players[id]) == Standing(q)
            && (forall o :: o in gs.players && o != id ==> Standing(r.gameState.value.players[o]) == Standing(gs.players[o]))
            && TotalDice(r.gameState.value) == TotalDice(gs) + q.diceCount - gs.players[id].diceCount
  {
    var gs := g.gameState.value;
    var after := gs.(players := gs.players[id := q]);
    var mid := g.(gameState := Some(after));
    StartNewRoundKeepsStanding(mid, starter, draws);
    var ns := StartNewRound(mid, starter, draws).gameState.value;
    SumDiceUpdate(gs.order, gs.players, id, q);
    SumDiceUnchanged(gs.order, after.players, ns.players);
  }

  /** After a dudo only the loser's standing changes: the challenger loses when the
      wager holds, the bidder when it does not; they hold one die fewer (never
      below zero), are dead at zero, and the table holds one die fewer unless the
      loser had none. */
  lemma DudoOutcome(g: Game, caller: PlayerId, draws: Draws)
    requires GameValid(g) && g.gameState.Some? && g.gameState.value.currentWager.Some?
    requires g.gameState.value.currentPlayerId == Some(caller)
    requires DudoLoser(g.gameState.value, caller) in g.gameState.value.players
    ensures CallDudo(g, caller, draws).Ok?
    ensures var gs := g.gameState.value;
            var w := gs.currentWager.value;
            var loser := if Supporting(gs) >= w.count then caller else w.playerId;
            var ns := CallDudo(g, caller, draws).value.gameState.value;
            var before := gs.players[loser];
            && loser in ns.players
            && ns.players[loser].diceCount == (if before.diceCount > 1 then before.diceCount - 1 else 0)
            && (ns.players[loser].status == Dead <==> before.diceCount <= 1 || before.status == Dead)
            && ns.players[loser].calzaCount == before.calzaCount
            && (forall id :: id in gs.players && id != loser ==> Standing(ns.players[id]) == Standing(gs.players[id]))
            && (before.diceCount >= 0 ==> TotalDice(ns) == TotalDice(gs) - (if before.diceCount >= 1 then 1 else 0))
  {
    var gs := g.gameState.value;
    var loser := DudoLoser(gs, caller);
    var q := LoseDie(gs.players[loser]);
    var mid := g.(gameState := Some(gs.(players := gs.players[loser := q])));
    assert CallDudo(g, caller, draws).value == StartNewRound(mid, loser, draws);
    PenaltyThenRound(g, loser, q, loser, draws);
    var ns := StartNewRound(mid, loser, draws).gameState.value;
    assert Standing(ns.players[loser]) == Standing(q);
    assert ns.players[loser].diceCount == q.diceCount && ns.players[loser].status == q.status;
  }

  /** callCalza: the player to act claims the wager is exact. They may not calza
      their own bid. Right, they win a die; wrong, they lose one; the next round
      starts with them. */
  function CallCalza(g: Game, caller: PlayerId, draws: Draws): (r: Result<Game, GameError>)
    requires GameValid(g)
    ensures r.Ok? ==> GameValid(r.value)
    ensures g.gameState.None? || g.gameState.value.currentWager.None? ==> r == Err(NoWager)
    ensures g.gameState.Some? && g.gameState.value.currentWager.Some? ==>
              var gs := g.gameState.value;
              && (gs.currentPlayerId != Some(caller) ==> r == Err(NotYourTurn))
              && (gs.currentPlayerId == Some(caller) && gs.currentWager.value.playerId == caller ==> r == Err(OwnBid))
              && (gs.currentPlayerId == Some(caller) && gs.currentWager.value.playerId != caller ==>
                    (r.Ok? <==> caller in gs.players) && (r.Err? ==> r == Err(PlayerMissing)))
    ensures r.Ok? ==>
              var gs := g.gameState.value;
              var p := gs.players[caller];
              var q := if Supporting(gs) == gs.currentWager.value.count then WinCalza(p) else LoseDie(p);
              r.value == StartNewRound(g.(gameState := Some(gs.(players := gs.players[caller := q]))), caller, draws)
  {
    match g.gameState
    case None => Err(NoWager)
    case Some(gs) =>
      if gs.currentWager.None? then Err(NoWager)
      else if gs.currentPlayerId != Some(caller) then Err(NotYourTurn)
      else if gs.currentWager.value.playerId == caller then Err(OwnBid)
      else if caller !in gs.players then Err(PlayerMissing)
      else
        var p := gs.players[caller];
        var q := if Supporting(gs) == gs.currentWager.value.count then WinCalza(p) else LoseDie(p);
        Ok(StartNewRound(g.(gameState := Some(gs.(players := gs.players[caller := q]))), caller, draws))
  }

  /** After a calza only the caller's standing changes. Exactly right: one more
      die up to five and one more calza. Wrong: one die fewer, dead at zero. */
  lemma CalzaOutcome(g: Game, caller: PlayerId, draws: Draws)
    requires GameValid(g) && g.gameState.Some? && g.gameState.value.currentWager.Some?
    requires g.gameState.value.currentPlayerId == Some(caller)
    requires g.gameState.value.currentWager.value.playerId != caller && caller in g.gameState.value.players
    ensures CallCalza(g, caller, draws).Ok?
    ensures var gs := g.gameState.value;
            var ns := CallCalza(g, caller, draws).value.gameState.value;
            var before := gs.players[caller];
            var exact := Supporting(gs) == gs.currentWager.value.count;
            && caller in ns.players
            && (exact ==>
                  && ns.players[caller].diceCount == (if before.diceCount + 1 < CalzaCap then before.diceCount + 1 else CalzaCap)
                  && ns.players[caller].calzaCount == before.calzaCount + 1
                  && ns.players[caller].status == before.status)
            && (!exact ==>
                  && ns.players[caller].diceCount == (if before.diceCount > 1 then before.diceCount - 1 else 0)
                  && ns.players[caller].calzaCount == before.calzaCount
                  && (ns.players[caller].status == Dead <==> before.diceCount <= 1 || before.status == Dead))
            && (forall id :: id in gs.players && id != caller ==> Standing(ns.players[id]) == Standing(gs.players[id]))
            && TotalDice(ns) == TotalDice(gs) + ns.players[caller].diceCount - before.diceCount
  {
    var gs := g.gameState.value;
    var p := gs.players[caller];
    var q := if Supporting(gs) == gs.currentWager.value.count then WinCalza(p) else LoseDie(p);
    PenaltyThenRound(g, caller, q, caller, draws);
  }
}

=== FILE: theme.dfy ===
/** Light, dark and system themes: the inline toggle's cycle, icon and label, and
    the theme provider's choice of theme. The browser's media query, its local
    storage and the signed-in profile are inputs. */
module Theme {
  import opened Wrappers

  datatype Theme = Light | Dark | System

  /** The theme actually painted. */
  datatype EffectiveTheme = PaintLight | PaintDark

  datatype Icon = Sun | Moon | Monitor

  /** The string a theme is stored and compared as. */
  function Name(t: Theme): string {
    match t
    case Light => "light"
    case Dark => "dark"
    case System => "system"
  }

  /** Reading a stored string back: only the three names are themes. */
  function Parse(s: string): (r: Option<Theme>)
    ensures r.Some? <==> s in {"light", "dark", "system"}
    ensures r.Some? ==> Name(r.value) == s
  {
    if s == "light" then Some(Light)
    else if s == "dark" then Some(Dark)
    else if s == "system" then Some(System)
    else None
  }

  lemma ParseName(t: Theme)
    ensures Parse(Name(t)) == Some(t)
  {
  }

  /** cycleTheme: light, then dark, then system, then light again. */
  function Cycle(t: Theme): (r: Theme)
    ensures r != t
    ensures t == Light ==> r == Dark
    ensures t == Dark ==> r == System
    ensures t == System ==> r == Light
  {
    if t == Light then Dark
    else if t == Dark then System
    else Light
  }

  /** Three clicks bring the toggle back to where it started. */
  lemma CycleThrice(t: Theme)
    ensures Cycle(Cycle(Cycle(t))) == t
    ensures Cycle(Cycle(t)) != t
  {
  }

  /** getIcon: one icon per theme. */
  function IconOf(t: Theme): (i: Icon)
    ensures i == Sun <==> t == Light
    ensures i == Moon <==> t == Dark
  {
    if t == Light then Sun
    else if t == Dark then Moon
    else Monitor
  }

  /** getLabel: one label per theme. */
  function Label(t: Theme): (s: string)
    ensures s in {"Light Mode", "Dark Mode", "System Theme"}
    ensures t == Light <==> s == "Light Mode"
    ensures t == Dark <==> s == "Dark Mode"
    ensures t == System <==> s == "System Theme"
  {
    match t
    case Light => "Light Mode"
    case Dark => "Dark Mode"
    case System => "System Theme"
  }

  lemma LabelsDistinct(t: Theme, u: Theme)
    ensures Label(t) == Label(u) <==> t == u
  {
  }

  /** getEffectiveTheme: light and dark are used as they are; system follows the
      dark-scheme media query when the browser offers one, and is light otherwise. */
  function Effective(t: Theme, hasMatchMedia: bool, prefersDark: bool): (e: EffectiveTheme)
    ensures t == Light ==> e == PaintLight
    ensures t == Dark ==> e == PaintDark
    ensures t == System ==> (e == PaintDark <==> hasMatchMedia && prefersDark)
  {
    if t != System then (if t == Light then PaintLight else PaintDark)
    else if hasMatchMedia then (if prefersDark then PaintDark else PaintLight)
    else PaintLight
  }

  /** The dropdown trigger's icon: a moon when dark is painted, a sun otherwise. */
  function TriggerIcon(e: EffectiveTheme): (i: Icon)
    ensures i != Monitor
    ensures i == Moon <==> e == PaintDark
  {
    if e == PaintDark then Moon else Sun
  }

  /** For an explicit light or dark choice the trigger and the inline toggle show
      the same icon, whatever the browser prefers. */
  lemma TriggerAgreesWithToggle(t: Theme, hasMatchMedia: bool, prefersDark: bool)
    requires t != System
    ensures TriggerIcon(Effective(t, hasMatchMedia, prefersDark)) == IconOf(t)
  {
  }

  /** The provider's starting theme: the profile's preference, else a recognised
      stored name, else system. */
  function InitialTheme(profileTheme: Option<Theme>, stored: Option<string>): (t: Theme)
    ensures profileTheme.Some? ==> t == profileTheme.value
    ensures profileTheme.None? && stored.Some? && Parse(stored.value).Some? ==> Name(t) == stored.value
    ensures profileTheme.None? && (stored.None? || Parse(stored.value).None?) ==> t == System
  {
    match profileTheme
    case Some(p) => p
    case None =>
      match stored
      case Some(s) => (match Parse(s) case Some(t) => t case None => System)
      case None => System
  }

  /** A stored string that is not a theme name never becomes the theme: without a
      profile preference the result is the name stored or the default. */
  lemma UnknownStoredIgnored(stored: string)
    requires stored !in {"light", "dark", "system"}
    ensures InitialTheme(None, Some(stored)) == System
  {
  }

  /** The profile-sync effect: the profile's theme replaces the current one when
      there is one and it differs. */
  function SyncFromProfile(current: Theme, profileTheme: Option<Theme>): (r: Theme)
    ensures r != current ==> profileTheme == Some(r)
    ensures profileTheme.Some? ==> r == profileTheme.value
    ensures profileTheme.None? ==> r == current
  {
    if profileTheme.Some? && profileTheme.value != current then profileTheme.value else current
  }

  /** What setTheme records: the new theme, the name written to local storage,
      and the preference saved to the profile when someone is signed in. */
  datatype ThemeWrite = ThemeWrite(theme: Theme, stored: string, profileTheme: Option<Theme>)

  function SetTheme(t: Theme, signedIn: bool): (w: ThemeWrite)
    ensures w.theme == t && Parse(w.stored) == Some(t)
    ensures w.profileTheme.Some? <==> signedIn
    ensures w.profileTheme.Some? ==> w.profileTheme.value == t
  {
    ThemeWrite(t, Name(t), if signedIn then Some(t) else None)
  }

  /** A theme chosen while signed out is the theme the next visit starts with. */
  lemma ChosenThemeSurvivesReload(t: Theme)
    ensures InitialTheme(None, Some(SetTheme(t, false).stored)) == t
  {
  }
}

=== FILE: turns.dfy ===
/** Turn rotation after a bid: the neighbour of the bidder in the list of alive and
    connected players, wrapping around, with JavaScript's remainder operator. */
module Turns {
  import opened Wrappers
  import opened GameTypes

  /** `s.indexOf(x)`: the first position of `x`, or -1. */
  function IndexOf(s: seq<PlayerId>, x: PlayerId): (i: int)
    ensures -1 <= i < |s|
    ensures i == -1 <==> x !in s
    ensures 0 <= i ==> s[i] == x && forall k :: 0 <= k < i ==> s[k] != x
  {
    if |s| == 0 then -1
    else if s[0] == x then 0
    else
      var k := IndexOf(s[1..], x);
      if k < 0 then -1 else k + 1
  }

  /** JavaScript's `a % n`: the remainder takes the sign of the dividend. */
  function JsRem(a: int, n: int): (r: int)
    requires n > 0
    ensures a >= 0 ==> r == a % n
    ensures a < 0 ==> -n < r <= 0
    ensures a < 0 ==> r == if a % n == 0 then 0 else a % n - n
  {
    if a >= 0 then a % n
    else
      var m := (-a) % n;
      var q := (-a) / n;
      assert a == -q * n - m;
      assert m != 0 ==> a == (-q - 1) * n + (n - m);
      NegativeRemainder(a, n, q, m);
      -m
  }

  /** The Euclidean remainder of `-(q * n + m)`, for `0 <= m < n`. */
  lemma NegativeRemainder(a: int, n: int, q: int, m: int)
    requires n > 0 && 0 <= m < n && a == -q * n - m
    ensures a % n == if m == 0 then 0 else n - m
  {
    var k := a / n;
    assert a == k * n + a % n;
    if m == 0 {
      assert (k + q) * n == - (a % n);
      MultipleBelow(k + q, n);
    } else {
      assert (k + q + 1) * n == n - m - a % n;
      MultipleBelow(k + q + 1, n);
    }
  }

  /** The only multiple of `n` strictly between `-n` and `n` is zero. */
  lemma MultipleBelow(k: int, n: int)
    requires n > 0 && -n < k * n < n
    ensures k == 0
  {
  }

  /** The player after `from` among `active` (makeBid, lines 512-517); `None` is the
      `undefined` an empty list yields. */
  function NextPlayer(active: seq<PlayerId>, from: PlayerId, dir: Direction): (r: Option<PlayerId>)
    ensures r.None? <==> |active| == 0
    ensures r.Some? ==> r.value in active
  {
    if |active| == 0 then None
    else
      var n := |active|;
      var i := IndexOf(active, from);
      var k := if dir == Up then JsRem(i + 1, n) else JsRem(i - 1 + n, n);
      assert 0 <= k < n;
      Some(active[k])
  }

  /** In a duplicate-free list the first position of an element is its position. */
  lemma IndexOfDistinct(s: seq<PlayerId>, j: int)
    requires NoDup(s) && 0 <= j < |s|
    ensures IndexOf(s, s[j]) == j
  {
  }

  /** The remainder of a value below twice the divisor. */
  lemma ModOfSmall(a: int, n: int)
    requires n > 0 && 0 <= a < 2 * n
    ensures a % n == (if a < n then a else a - n)
  {
    if a >= n {
      assert (a - n) % n == a % n;
    }
  }

  /** From a seat in the list, 'up' moves one place forward and 'down' one place
      back, wrapping around at both ends. */
  lemma NextFromSeat(active: seq<PlayerId>, i: int)
    requires NoDup(active) && 0 <= i < |active|
    ensures NextPlayer(active, active[i], Up) == Some(active[if i + 1 < |active| then i + 1 else 0])
    ensures NextPlayer(active, active[i], Down) == Some(active[if i > 0 then i - 1 else |active| - 1])
  {
    var n := |active|;
    IndexOfDistinct(active, i);
    ModOfSmall(i + 1, n);
    ModOfSmall(i - 1 + n, n);
  }

  /** A bidder missing from the list (disconnected, say) hands the turn to the
      first player going 'up', and to the last but one going 'down' (the first
      when the list has a single entry). */
  lemma NextFromOutside(active: seq<PlayerId>, from: PlayerId)
    requires from !in active && |active| > 0
    ensures NextPlayer(active, from, Up) == Some(active[0])
    ensures NextPlayer(active, from, Down) == Some(active[if |active| >= 2 then |active| - 2 else 0])
  {
    var n := |active|;
    if n >= 2 {
      ModOfSmall(n - 2, n);
    }
  }

  /** 'up' and 'down' undo each other for a player in the list. */
  lemma {:induction false} UpThenDownReturns(active: seq<PlayerId>, from: PlayerId)
    requires NoDup(active) && from in active
    ensures NextPlayer(active, NextPlayer(active, from, Up).value, Down) == Some(from)
    ensures NextPlayer(active, NextPlayer(active, from, Down).value, Up) == Some(from)
  {
    var n := |active|;
    var i := IndexOf(active, from);
    NextFromSeat(active, i);
    NextFromSeat(active, if i + 1 < n then i + 1 else 0);
    NextFromSeat(active, if i > 0 then i - 1 else n - 1);
  }
}

=== FILE: user_stats.dfy ===
/** Player profiles: the profile written on first sign-up, the statistics
    update after a finished game, and the success rates shown from them. */
module UserStats {
  import opened Wrappers
  import Theme

  /** Number of entries in the avatar list a new profile draws from. */
  const AvatarCount := 60

  /** Career statistics; `lastWinDate` is `None` until the first win. */
  datatype Stats = Stats(
    gamesPlayed: int,
    gamesWon: int,
    totalDudoCalls: int,
    successfulDudos: int,
    totalCalzaCalls: int,
    successfulCalzas: int,
    currentWinStreak: int,
    longestWinStreak: int,
    lastWinDate: Option<int>,
    totalDiceRolled: int,
    totalRoundsPlayed: int)

  datatype Preferences = Preferences(soundEnabled: bool, notificationsEnabled: bool, theme: Theme.Theme)

  /** A profile; the avatar is an index into the avatar list. */
  datatype Profile = Profile(uid: string, email: string, nickname: string, avatar: nat,
                             stats: Stats, preferences: Preferences)

  /** One finished game as reported by the client. */
  datatype GameResult = GameResult(
    won: bool,
    dudoCalls: int,
    successfulDudos: int,
    calzaCalls: int,
    successfulCalzas: int,
    diceRolled: int,
    roundsPlayed: int)

  /** `email.split('@')[0]`: everything before the first '@', or the whole
      address when there is none. */
  function DefaultNickname(email: string): (r: string)
    ensures '@' !in r
    ensures r <= email
    ensures |r| < |email| ==> email[|r|] == '@'
    ensures '@' !in email ==> r == email
  {
    if |email| == 0 || email[0] == '@' then ""
    else [email[0]] + DefaultNickname(email[1..])
  }

  /** Statistics of a profile that has played no game. */
  function NoStats(): (s: Stats)
    ensures s.gamesPlayed == 0 && s.gamesWon == 0
    ensures s.totalDudoCalls == 0 && s.successfulDudos == 0
    ensures s.totalCalzaCalls == 0 && s.successfulCalzas == 0
    ensures s.currentWinStreak == 0 && s.longestWinStreak == 0
    ensures s.totalDiceRolled == 0 && s.totalRoundsPlayed == 0
    ensures s.lastWinDate.None?
  {
    Stats(0, 0, 0, 0, 0, 0, 0, 0, None, 0, 0)
  }

  /** initializeUserProfile: a missing or empty nickname falls back to the
      address's local part; `avatar` is the random pick from the avatar list. */
  function InitializeUserProfile(uid: string, email: string, nickname: Option<string>, avatar: nat): (p: Profile)
    requires avatar < AvatarCount
    ensures p.uid == uid && p.email == email && p.avatar == avatar
    ensures p.stats == NoStats()
    ensures p.preferences == Preferences(true, true, Theme.System)
    ensures nickname.Some? && nickname.value != "" ==> p.nickname == nickname.value
    ensures (nickname.None? || nickname.value == "") ==> p.nickname == DefaultNickname(email) && '@' !in p.nickname
  {
    var name := if nickname.Some? && nickname.value != "" then nickname.value else DefaultNickname(email);
    Profile(uid, email, name, avatar, NoStats(), Preferences(true, true, Theme.System))
  }

  /** The statistics after one game finished at time `now`. */
  function Record(s: Stats, g: GameResult, now: int): (r: Stats)
    ensures r.gamesPlayed == s.gamesPlayed + 1
    ensures r.totalDudoCalls == s.totalDudoCalls + g.dudoCalls
    ensures r.successfulDudos == s.successfulDudos + g.successfulDudos
    ensures r.totalCalzaCalls == s.totalCalzaCalls + g.calzaCalls
    ensures r.successfulCalzas == s.successfulCalzas + g.successfulCalzas
    ensures r.totalDiceRolled == s.totalDiceRolled + g.diceRolled
    ensures r.totalRoundsPlayed == s.totalRoundsPlayed + g.roundsPlayed
    ensures g.won ==> r.gamesWon == s.gamesWon + 1 && r.currentWinStreak == s.currentWinStreak + 1
    ensures g.won ==> r.lastWinDate == Some(now)
    ensures g.won ==> r.longestWinStreak >= s.longestWinStreak && r.longestWinStreak >= r.currentWinStreak
    ensures g.won ==> (r.longestWinStreak == s.longestWinStreak || r.longestWinStreak == r.currentWinStreak)
    ensures !g.won ==> r.currentWinStreak == 0
    ensures !g.won ==> r.gamesWon == s.gamesWon && r.longestWinStreak == s.longestWinStreak
    ensures !g.won ==> r.lastWinDate == s.lastWinDate
  {
    var streak := s.currentWinStreak;
    var base := s.(gamesPlayed := s.gamesPlayed + 1,
                   totalDudoCalls := s.totalDudoCalls + g.dudoCalls,
                   successfulDudos := s.successfulDudos + g.successfulDudos,
                   totalCalzaCalls := s.totalCalzaCalls + g.calzaCalls,
                   successfulCalzas := s.successfulCalzas + g.successfulCalzas,
                   totalDiceRolled := s.totalDiceRolled + g.diceRolled,
                   totalRoundsPlayed := s.totalRoundsPlayed + g.roundsPlayed);
    if g.won then
      base.(gamesWon := s.gamesWon + 1,
            currentWinStreak := streak + 1,
            lastWinDate := Some(now),
            longestWinStreak := if streak + 1 > s.longestWinStreak then streak + 1 else s.longestWinStreak)
    else
      base.(currentWinStreak := 0)
  }

  /** updateUserStats: nothing is written when the profile does not exist;
      otherwise only the statistics change. */
  function UpdateUserStats(profile: Option<Profile>, g: GameResult, now: int): (r: Option<Profile>)
    ensures r.None? <==> profile.None?
    ensures r.Some? ==> r.value.stats == Record(profile.value.stats, g, now)
    ensures r.Some? ==> r.value.uid == profile.value.uid && r.value.email == profile.value.email
    ensures r.Some? ==> r.value.nickname == profile.value.nickname && r.value.avatar == profile.value.avatar
    ensures r.Some? ==> r.value.preferences == profile.value.preferences
  {
    match profile
    case None => None
    case Some(p) => Some(p.(stats := Record(p.stats, g, now)))
  }

  /** Consistency of a statistics record that the updates keep. */
  predicate Consistent(s: Stats) {
    0 <= s.currentWinStreak <= s.longestWinStreak &&
    0 <= s.gamesWon <= s.gamesPlayed &&
    s.longestWinStreak <= s.gamesWon
  }

  lemma NewProfileConsistent()
    ensures Consistent(NoStats())
  {
  }

  /** A game played by anyone keeps the record consistent: the streak never
      overtakes the longest streak, wins never overtake games, and the longest
      streak is never more than the wins. */
  lemma RecordKeepsConsistent(s: Stats, g: GameResult, now: int)
    requires Consistent(s)
    ensures Consistent(Record(s, g, now))
  {
  }

  /** The longest streak never decreases, whatever the game's outcome. */
  lemma LongestNeverDecreases(s: Stats, g: GameResult, now: int)
    ensures Record(s, g, now).longestWinStreak >= s.longestWinStreak
  {
  }

  /** The record after winning `k` games in a row. */
  function WinRun(s: Stats, k: nat, now: int): Stats
    decreases k
  {
    if k == 0 then s else Record(WinRun(s, k - 1, now), GameResult(true, 0, 0, 0, 0, 0, 0), now)
  }

  /** Winning `k` games in a row lengthens the streak by `k`, and the longest
      streak is at least the new streak. */
  lemma {:induction false} WinRunStreak(s: Stats, k: nat, now: int)
    ensures WinRun(s, k, now).currentWinStreak == s.currentWinStreak + k
    ensures k > 0 ==> WinRun(s, k, now).longestWinStreak >= s.currentWinStreak + k
    ensures WinRun(s, k, now).gamesWon == s.gamesWon + k
  {
    if k > 0 {
      var prev := WinRun(s, k - 1, now);
      WinRunStreak(s, k - 1, now);
      var next := Record(prev, GameResult(true, 0, 0, 0, 0, 0, 0), now);
      assert WinRun(s, k, now) == next;
      assert next.longestWinStreak >= next.currentWinStreak == prev.currentWinStreak + 1;
    }
  }

  /** `Math.round(num / den * 100)` for a positive denominator, as exact
      arithmetic: the integer nearest to 100·num/den, halves rounded up. */
  function RoundedPercent(num: int, den: int): (r: int)
    requires den > 0
    ensures -den < 2 * den * r - 200 * num <= den
  {
    (200 * num + den) / (2 * den)
  }

  /** One success rate: 0 when nothing was attempted. */
  function SuccessRate(num: int, den: int): (r: int)
    ensures den <= 0 ==> r == 0
    ensures den > 0 ==> -den < 2 * den * r - 200 * num <= den
  {
    if den > 0 then RoundedPercent(num, den) else 0
  }

  /** A rate is a percentage when the successes do not exceed the attempts, and
      is 100 exactly when every attempt succeeded. */
  lemma SuccessRateBounds(num: int, den: int)
    requires 0 <= num <= den
    ensures 0 <= SuccessRate(num, den) <= 100
    ensures 0 < den ==> (SuccessRate(num, den) == 100 <==> 200 * num >= 199 * den)
    ensures 0 < den == num ==> SuccessRate(num, den) == 100
    ensures num == 0 ==> SuccessRate(num, den) == 0
  {
    if den > 0 {
      var r := SuccessRate(num, den);
      assert 2 * den * r <= den + 200 * num <= 201 * den;
      assert 2 * den * r > 200 * num - den >= -den;
      RateBelow(den, r);
      if r == 100 {
        assert 200 * den - 200 * num <= den;
      }
      if 200 * num >= 199 * den {
        assert 2 * den * r > 199 * den - den;
        RateAbove(den, r);
      }
    }
  }

  /** Dividing out the positive denominator in the bounds above. */
  lemma RateBelow(den: int, r: int)
    requires den > 0 && 2 * den * r <= 201 * den && 2 * den * r > -den
    ensures 0 <= r <= 100
  {
  }

  lemma RateAbove(den: int, r: int)
    requires den > 0 && 2 * den * r > 198 * den && r <= 100
    ensures r == 100
  {
  }

  datatype Rates = Rates(dudoSuccessRate: int, calzaSuccessRate: int, winRate: int)

  /** calculateSuccessRates over a profile's statistics. */
  function CalculateSuccessRates(s: Stats): (r: Rates)
    ensures s.totalDudoCalls <= 0 ==> r.dudoSuccessRate == 0
    ensures s.totalCalzaCalls <= 0 ==> r.calzaSuccessRate == 0
    ensures s.gamesPlayed <= 0 ==> r.winRate == 0
    ensures s.totalDudoCalls > 0 ==>
              -s.totalDudoCalls < 2 * s.totalDudoCalls * r.dudoSuccessRate - 200 * s.successfulDudos <= s.totalDudoCalls
    ensures s.totalCalzaCalls > 0 ==>
              -s.totalCalzaCalls < 2 * s.totalCalzaCalls * r.calzaSuccessRate - 200 * s.successfulCalzas <= s.totalCalzaCalls
    ensures s.gamesPlayed > 0 ==>
              -s.gamesPlayed < 2 * s.gamesPlayed * r.winRate - 200 * s.gamesWon <= s.gamesPlayed
  {
    Rates(SuccessRate(s.successfulDudos, s.totalDudoCalls),
          SuccessRate(s.successfulCalzas, s.totalCalzaCalls),
          SuccessRate(s.gamesWon, s.gamesPlayed))
  }

  /** The win rate of a consistent record is a percentage. */
  lemma WinRateIsPercentage(s: Stats)
    requires Consistent(s)
    ensures 0 <= CalculateSuccessRates(s).winRate <= 100
    ensures CalculateSuccessRates(s).winRate == 100 <==> s.gamesPlayed > 0 && 200 * s.gamesWon >= 199 * s.gamesPlayed
  {
    SuccessRateBounds(s.gamesWon, s.gamesPlayed);
  }

  /** After the first game the win rate is all or nothing. */
  lemma FirstGameRates(g: GameResult, now: int)
    ensures CalculateSuccessRates(Record(NoStats(), g, now)).winRate == (if g.won then 100 else 0)
  {
    var s := Record(NoStats(), g, now);
    SuccessRateBounds(s.gamesWon, s.gamesPlayed);
  }
}

=== FILE: wrappers.dfy ===
/** Optional values and error-carrying results shared by every module of the model. */
module Wrappers {

  /** A value that may be absent: `undefined`/`null` in the original program. */
  datatype Option<+T> = None | Some(value: T)

  /** The outcome of an operation that either succeeds or is refused with an error. */
  datatype Result<+T, +E> = Ok(value: T) | Err(error: E)
}
